=== FILE: README.md ===
# Restaurant ordering app: storage, cart and admin logic

This project models the logic behind a small restaurant ordering web app. Customers browse a menu, fill a cart and place dine-in or takeaway orders. An administrator maintains the menu and completes pending orders.

The model covers five parts of the app:

- **Local store** (`lib/storage.ts`, module `Storage`). Menu items and orders are two lists kept in the browser's `localStorage`. The add, update and delete operations read a list and write it back. The class `Storage.Store` holds the two stored entries.
- **Remote-preferring layer** (`lib/supabase.ts`, modules `Records`, `Browser` and `Supabase`). It runs the same operations against a local mirror and treats the hosted database as a best-effort target.
  - Each remote call is a parameter of type `Outcome<T>`: `NotConfigured`, `Failed` or `Ok(data)`. The predicate `Agrees` ties an outcome to whether the client is configured.
  - `UploadImage`, `Subscribe` and `CheckConnection` take no storage. Their `ensures` relate the result to the outcome of the remote call.
  - The class `Browser.LocalStorage` holds every `localStorage` key the pages use.
  - Each read or write of the two lists is a module-level method of `Supabase` that takes a `Browser.LocalStorage` parameter. Its `ensures` equates the new mirror, and the value returned, with a pure policy function of the old mirror and the outcomes (`MenuRead`, `MenuAfterAdd`, `OrdersAfterDelete`, …). The lemmas then state the routing policy on those functions.
- **Home page** (`app/page.tsx`, module `HomePage`). The cart maps an item id to a positive quantity. The category filter and the cart count are pure functions. The class `HomePage.HomeView` holds the page state and persists the cart on every change.
- **Checkout page** (`app/checkout/page.tsx`, module `Checkout`). It covers:
  - the cart update;
  - the join of the cart against the menu, and the total;
  - JavaScript's `String.prototype.trim`;
  - the validation gate;
  - building the order, and submitting it through `Supabase.AddOrder`.
- **Admin page** (`app/admin/page.tsx`, module `Admin`). It covers:
  - the 24-hour session check;
  - the guarded add and edit handlers, and the rule that keeps the item's image on edit;
  - completing an order by deleting it;
  - logout.

`wrappers.dfy` holds `Option`. `lists.dfy` holds the generic `Filter` and `MapSeq` (JavaScript's `filter` and `map`) with their lemmas.

## Model

| member | source | states |
|---|---|---|
| Lists.Filter | lib/storage.ts:105 | `filter`: every element kept passes the test and comes from the list, every element that passes is kept, and the list never grows |
| Lists.MapSeq | lib/storage.ts:99 | `map`: the same length, and each element is the image of the element at the same place |
| Lists.FilterConcat | lib/storage.ts:105 | filtering a concatenation is concatenating the filtered parts, so relative order is kept |
| Lists.FilterSnoc | lib/storage.ts:130 | filtering a list with one element appended is the filtered list followed by that element when it passes |
| Lists.FilterCount | lib/storage.ts:137 | filtering keeps every copy of a passing element and no copy of a failing one |
| Browser.LocalStorage.constructor | lib/supabase.ts:97-101 | a browser holding none of the five keys: menu, orders, cart, login flag and login time |
| Storage.Store.constructor | lib/storage.ts:79-80 | a fresh store has neither the menu key nor the orders key, the case the read falls back on |
| Storage.Store.GetMenuItems | lib/storage.ts:77-81 | with no stored menu the result is the six-item seed, otherwise exactly the stored list |
| Storage.Store.SaveMenuItems | lib/storage.ts:83-87 | the menu entry becomes exactly the given list, and nothing else changes |
| Storage.Store.AddMenuItem | lib/storage.ts:89-95 | the stored menu becomes the previous menu with the new item (id = the clock) appended at the end |
| Storage.Store.UpdateMenuItem | lib/storage.ts:97-101 | the stored menu becomes the previous menu with the patch merged into the items with that id |
| Storage.Store.DeleteMenuItem | lib/storage.ts:103-107 | the stored menu becomes the previous menu without the items with that id |
| Storage.Store.GetOrders | lib/storage.ts:110-114 | with no stored orders the result is empty, otherwise exactly the stored list |
| Storage.Store.SaveOrders | lib/storage.ts:116-120 | the orders entry becomes exactly the given list |
| Storage.Store.AddOrder | lib/storage.ts:122-133 | exactly one order is appended; it has status pending, and the earlier orders are unchanged |
| Storage.Store.DeleteOrder | lib/storage.ts:135-139 | the stored orders become the previous orders without those with that id |
| Storage.Store.GetPendingOrders | lib/storage.ts:141-143 | the result is the stored orders filtered by status pending, and each element is a stored pending order |
| Storage.Store.Menu | lib/storage.ts:77-81 | definition: the stored menu, or the six-item seed when the key is absent |
| Storage.Store.Orders | lib/storage.ts:110-114 | definition: the stored orders, or the empty list when the key is absent |
| Storage.Merge | lib/storage.ts:99 | definition: `{ ...item, ...updates }`, each field of the patch present or absent |
| Storage.UpdateItems | lib/storage.ts:99 | definition: the `map` that merges the patch into the items with the id |
| Storage.RemoveItem | lib/storage.ts:105 | definition: the `filter` that drops the items with the id |
| Storage.RemoveOrder | lib/storage.ts:137 | definition: the `filter` that drops the orders with the id |
| Storage.PendingOf | lib/storage.ts:142 | definition: the `filter` that keeps the orders with status pending |
| Storage.MenuItemOf | lib/storage.ts:91 | definition: the input with the clock as its id |
| Storage.OrderOf | lib/storage.ts:124-129 | definition: the input with the clock as id, status pending and the creation time |
| Storage.DefaultMenuItems | lib/storage.ts:31-74 | definition: the six-item `defaultMenuItems` seed, each with the placeholder image |
| Storage.DefaultMenuShape | lib/storage.ts:31-74 | the seed has six items with ids 1 to 6; the first is "Nasi Goreng Spesial", 25000, "Makanan Utama" |
| Storage.MergeOverrides | lib/storage.ts:99 | every field present in the patch overrides the item's field, every absent field keeps the item's value, and an empty patch is the identity |
| Storage.UpdateItemsSpec | lib/storage.ts:97-101 | an update keeps the length, leaves items with another id equal, and merges the patch into items with the id |
| Storage.UpdateItemsIdempotent | lib/storage.ts:97-101 | applying the same update twice equals applying it once, provided the patch does not change the id |
| Storage.RemoveItemSpec | lib/storage.ts:103-107 | no remaining item has the id; every item with another id survives; removal distributes over concatenation, so relative order is kept |
| Storage.RemoveOrderSpec | lib/storage.ts:135-139 | no remaining order has the id; every other order survives, in order |
| Storage.PendingOfSpec | lib/storage.ts:141-143 | the pending list holds exactly the stored orders whose status is pending, in stored order |
| Storage.AddedOrderIsPending | lib/storage.ts:122-143 | after an order is added, the pending list is the previous pending list with the new order at the end |
| Records.ItemsTotal | app/checkout/page.tsx:63 | definition: the sum of quantity × price over an order's items, the total the checkout page computes |
| Supabase.ClientCreated | lib/supabase.ts:4-8 | the client exists exactly when the URL and the anonymous key are both non-empty |
| Supabase.IsConfigured | lib/supabase.ts:92-94 | configured iff the URL and the anonymous key are non-empty, and then the client exists |
| Supabase.Merge | lib/supabase.ts:191 | definition: `{ ...item, ...updates }` on the database record |
| Supabase.UpdateItems | lib/supabase.ts:191 | definition: the `map` that merges the patch into the items with the id |
| Supabase.RemoveItem | lib/supabase.ts:217 | definition: the `filter` that drops the items with the id |
| Supabase.RemoveOrder | lib/supabase.ts:328 | definition: the `filter` that drops the orders with the id |
| Supabase.PendingOf | lib/supabase.ts:283 | definition: the `filter` that keeps the orders with status pending |
| Supabase.NewMenuItem | lib/supabase.ts:159 | definition: the locally built item, with the clock as id and the creation time |
| Supabase.NewOrder | lib/supabase.ts:287-292 | definition: the locally built order, with the clock as id, status pending and the creation time |
| Records.FallbackMenuItems | lib/supabase.ts:39-89 | definition: the six-item `fallbackMenuItems` seed, each with the placeholder image and one shared creation time |
| Supabase.Initialized | lib/supabase.ts:97-110 | definition: the mirror with the seed menu and `[]` filled in where a key is absent |
| Supabase.MenuRead | lib/supabase.ts:113-156 | definition: the mirror after `getMenuItems` and the list it returns, for each outcome |
| Supabase.OrdersRead | lib/supabase.ts:240-279 | definition: the mirror after `getOrders` and the list it returns, for each outcome |
| Supabase.PendingRead | lib/supabase.ts:281-284 | definition: the orders read, filtered by status pending |
| Supabase.MenuAfterAdd | lib/supabase.ts:162-166 | definition: the mirror after the read, with the new item appended to the menu |
| Supabase.MenuAfterUpdate | lib/supabase.ts:189-193 | definition: the mirror after the read, with the merge applied to the menu |
| Supabase.MenuAfterDelete | lib/supabase.ts:215-219 | definition: the mirror after the read, with the items with the id dropped |
| Supabase.OrdersAfterAdd | lib/supabase.ts:295-299 | definition: the mirror after the read, with the new order appended |
| Supabase.OrdersAfterDelete | lib/supabase.ts:326-330 | definition: the mirror after the read, with the orders with the id dropped |
| Supabase.Returned | lib/supabase.ts:168-184 | definition: the inserted row when the insert succeeds, otherwise the local record |
| Supabase.InitializeLocalStorage | lib/supabase.ts:97-110 | the mirror becomes the initialised mirror of the old one |
| Supabase.InitializedNeverOverwrites | lib/supabase.ts:97-110 | the seed menu is written only when the menu key is absent and `[]` only when the orders key is absent; existing data is never overwritten, and initialising twice equals initialising once |
| Supabase.GetMenuItems | lib/supabase.ts:113-156 | the returned list and the new mirror are those the menu-read policy gives for the old mirror and the outcome |
| Supabase.MenuReadFallsBack | lib/supabase.ts:113-156 | when unconfigured or failed, the read returns the initialised mirror's menu (the seed when nothing was stored) and changes only the initialisation |
| Supabase.FirstRunShowsSeed | lib/supabase.ts:97-127 | on an empty mirror a failed or unconfigured read returns six items, the first being "Nasi Goreng Spesial" |
| Supabase.MenuReadRefreshesWhenNonEmpty | lib/supabase.ts:128-147 | a successful read returns the fetched list and overwrites the menu mirror only when that list is non-empty |
| Supabase.GetOrders | lib/supabase.ts:240-279 | the returned list and the new mirror are those the orders-read policy gives |
| Supabase.OrdersReadRefreshesAlways | lib/supabase.ts:240-279 | a successful read overwrites the orders mirror even with an empty list; otherwise the stored orders are returned |
| Supabase.GetPendingOrders | lib/supabase.ts:281-284 | the result is the orders read, filtered by status pending |
| Supabase.AddMenuItem | lib/supabase.ts:158-185 | the mirror gains the new item before the remote insert, and the mirror does not depend on the insert's outcome; the local item is returned unless the insert succeeds |
| Supabase.LocalRecordReturnedUnlessAccepted | lib/supabase.ts:158-185 | when the remote is unconfigured or fails, the locally built record is returned; on success the inserted row is returned |
| Supabase.AddedMenuItemListedLast | lib/supabase.ts:158-185 | after an add, the stored menu, and what a later unconfigured read returns, is the menu read before with the new item at the end |
| Supabase.UpdateMenuItem | lib/supabase.ts:187-211 | the mirror gets the merge whatever the remote write does, and the result is always true |
| Supabase.DeleteMenuItem | lib/supabase.ts:213-237 | the mirror loses the items with the id whatever the remote write does, and the result is always true |
| Supabase.DeletedMenuItemStaysGone | lib/supabase.ts:213-237 | after a delete, a later failed or unconfigured read lists no item with that id |
| Supabase.AddOrder | lib/supabase.ts:286-322 | the mirror gains the new pending order before the remote insert, and the mirror does not depend on the insert's outcome; the local order is returned unless the insert succeeds |
| Supabase.AddedOrderIsPending | lib/supabase.ts:281-322 | after an add, the pending list read back is the earlier pending list with the new order at the end |
| Supabase.DeleteOrder | lib/supabase.ts:324-348 | the mirror loses the orders with the id whatever the remote write does, and the result is always true |
| Supabase.DeletedOrderNotPending | lib/supabase.ts:281-334 | after deleting an order, a later unconfigured or failed pending read holds no order with that id |
| Supabase.UploadImage | lib/supabase.ts:351-385 | the uploaded file's public URL on success, otherwise the file's data URI |
| Supabase.Subscribe | lib/supabase.ts:388-420 | a channel named after the table exists exactly when the subscription was set up; otherwise the handle is a no-op |
| Supabase.CheckConnection | lib/supabase.ts:423-435 | connected iff configured and the probe query succeeded |
| HomePage.Quantity | app/page.tsx:74-76 | an absent id counts as 0 |
| HomePage.AddOne | app/page.tsx:72-81 | the id's count becomes its previous count (0 if absent) plus one; every other key keeps its value |
| HomePage.RemoveOne | app/page.tsx:83-94 | a count above one is decremented; otherwise the key is deleted; other keys are unchanged |
| HomePage.CartStaysPositive | app/page.tsx:72-94 | if every count is positive before an add or a remove, every count is positive after |
| HomePage.RemoveOneNeverStoresZero | app/page.tsx:83-94 | after a remove, the removed id is never left at 0 |
| HomePage.AddThenRemove | app/page.tsx:72-94 | on a cart whose counts are all positive, adding then removing the same id gives back the original cart |
| HomePage.CartRoundTripExample | app/page.tsx:72-94 | three adds then two removes of item 4 leave one item 4, and a last remove empties the cart |
| HomePage.FilteredItems | app/page.tsx:96-97 | with "Semua" the whole menu; otherwise exactly the items of that category, each taken from the menu |
| HomePage.FilteredItemsKeepOrder | app/page.tsx:96-97 | filtering distributes over concatenation, so menu order is kept |
| HomePage.CartItemsCount | app/page.tsx:99 | definition: the sum of the cart's quantities |
| HomePage.SumOver | app/page.tsx:99 | definition: the sum of the cart's quantities over a set of its keys, one key at a time |
| HomePage.SumSplit | app/page.tsx:99 | the sum of quantities over a key set is one key's count plus the sum over the rest, whichever key is picked |
| HomePage.SumAgree | app/page.tsx:99 | two carts that agree on a key set have the same sum over it |
| HomePage.AddOneCount | app/page.tsx:72-99 | adding an item raises the cart item count by exactly one |
| HomePage.RemoveOneCount | app/page.tsx:83-99 | on a cart whose counts are all positive, removing an item in the cart lowers the count by exactly one; removing an absent item changes nothing |
| HomePage.HomeView.constructor | app/page.tsx:13-15 | the page starts with an empty menu, an empty cart and the category "Semua" |
| HomePage.HomeView.Mount | app/page.tsx:22-69 | the menu shown and the mirror are those of the menu read; a saved cart replaces the page's cart |
| HomePage.HomeView.AddToCart | app/page.tsx:72-81 | the cart becomes the add-one cart, and the same cart is written to `restaurant_cart` |
| HomePage.HomeView.RemoveFromCart | app/page.tsx:83-94 | the cart becomes the remove-one cart, and the same cart is written to `restaurant_cart` |
| HomePage.HomeView.SelectCategory | app/page.tsx:96-97 | the selected category becomes the one chosen |
| Checkout.CartAfterChange | app/checkout/page.tsx:40-54 | the count becomes current + change when that is positive, otherwise the key is removed; other keys are unchanged |
| Checkout.UpdateCartItemMatchesHome | app/checkout/page.tsx:40-54 | on a cart with positive counts, a change of +1 is the home page's add and −1 is its remove |
| Checkout.UpdateCartItemKeepsPositive | app/checkout/page.tsx:40-54 | on a cart whose counts are all positive, every count stays positive after any change |
| Checkout.Find | app/checkout/page.tsx:58 | a found item is on the menu with the id; none is found only when no menu item has the id |
| Checkout.FindFirst | app/checkout/page.tsx:58 | the item found is the first one on the menu with the id |
| Checkout.EnumeratesCart | app/checkout/page.tsx:56 | definition: `Object.entries(cart)`, a listing of the cart's keys, each exactly once |
| Checkout.CartItems | app/checkout/page.tsx:56-61 | each line is a menu item whose id is in the cart, with its cart quantity, and there are no more lines than keys enumerated |
| Checkout.CartItemsIsFilteredJoin | app/checkout/page.tsx:56-61 | the lines are, in cart order, the cart entries whose id is on the menu, each joined with its first menu item; the others are dropped |
| Checkout.TotalPrice | app/checkout/page.tsx:63 | definition: the sum of price × quantity over the cart lines |
| Checkout.Snapshot | app/checkout/page.tsx:98-102 | definition: the name, quantity and price of each cart line |
| Checkout.SnapshotTotal | app/checkout/page.tsx:98-103 | the snapshot of the lines has the same total as the lines |
| Checkout.TotalPriceNonNegative | app/checkout/page.tsx:63 | with non-negative prices and positive quantities the total is non-negative |
| Checkout.TrimStart | app/checkout/page.tsx:66 | the result is a suffix of the input; everything cut is white space, and the result does not start with white space |
| Checkout.TrimEnd | app/checkout/page.tsx:66 | the result is a prefix of the input; everything cut is white space, and the result does not end with white space |
| Checkout.IsWhiteSpace | app/checkout/page.tsx:66 | definition: the ECMAScript WhiteSpace and LineTerminator code points that `trim()` strips |
| Checkout.Blank | app/checkout/page.tsx:66 | definition: every character is white space |
| Checkout.Trim | app/checkout/page.tsx:66 | definition: `trim()`, the leading then the trailing white space removed |
| Checkout.TrimEmptyIffBlank | app/checkout/page.tsx:66-79 | a trimmed string is empty exactly when every character is white space |
| Checkout.Validate | app/checkout/page.tsx:65-84 | definition: the four guards in their order, each with its own rejection |
| Checkout.BuildOrder | app/checkout/page.tsx:89-104 | definition: `orderData`, trimmed fields split by order type, the line snapshots and the total |
| Checkout.ValidateAccepts | app/checkout/page.tsx:65-84 | accepted iff the name is not blank, the table (dine-in) or the address and phone (takeaway) are not blank, and the cart has lines; a blank name is always the reason reported |
| Checkout.BuildOrderSpec | app/checkout/page.tsx:89-103 | only dine-in orders carry the trimmed table, and only takeaway orders the trimmed address and phone; the name is trimmed; the items are name, quantity and price snapshots of the lines; the total equals the lines' total and the items' total |
| Checkout.CheckoutView.constructor | app/checkout/page.tsx:17-23 | the page starts with an empty cart and form, dine-in selected |
| Checkout.CheckoutView.LoadData | app/checkout/page.tsx:30-38 | the menu shown and the mirror are those of the menu read; a saved cart replaces the page's cart |
| Checkout.CheckoutView.UpdateCartItem | app/checkout/page.tsx:40-54 | the cart becomes the changed cart, and the same cart is written to `restaurant_cart` |
| Checkout.CheckoutView.SubmitOrder | app/checkout/page.tsx:65-111 | a rejection changes no storage, so no order is placed; otherwise the built order goes through the add-order policy and the cart key is removed |
| Admin.Digits | app/admin/page.tsx:241-249 | the decimal digits of a number are never empty |
| Admin.DecimalString | app/admin/page.tsx:241-249 | a price's decimal text is never empty |
| Admin.Truthy | app/admin/page.tsx:73 | definition: a stored string that is present and non-empty, the `!isLoggedIn` and `!loginTime` tests |
| Admin.SessionValid | app/admin/page.tsx:70-73 | definition: both session keys truthy and the login time not more than 24 hours ago |
| Admin.RequiredFieldsFilled | app/admin/page.tsx:116 | definition: name, price and category all non-empty, as in the add and edit guards |
| Admin.SessionLastsADay | app/admin/page.tsx:73 | a session with a numeric login time is valid at exactly 24 hours and expired one millisecond later; validity is monotone in time |
| Admin.SessionNeedsBothKeys | app/admin/page.tsx:70-73 | without the login flag or the login time there is no session; a login time that does not parse never expires |
| Admin.ChooseImageUrl | app/admin/page.tsx:161-165 | the item's image is kept unless a new file was chosen and its upload gave a non-empty reference |
| Admin.EditDialogPriceFilled | app/admin/page.tsx:241-249 | after the edit dialog opens, the required-field guard holds iff the name and the category are non-empty |
| Admin.CompletionDeletes | app/admin/page.tsx:207-215 | completing an order removes every order with its id and keeps every other order, as often as before and unchanged |
| Admin.EmptyForm | app/admin/page.tsx:59-65 | definition: the blank menu form, also restored after an add or an edit |
| Admin.AdminView.constructor | app/admin/page.tsx:50-65 | the page starts with no data, no dialogs open and an empty form |
| Admin.AdminView.Mount | app/admin/page.tsx:69-113 | data loads iff the session is valid; an invalid session removes both session keys and loads nothing |
| Admin.AdminView.HandleAddMenu | app/admin/page.tsx:115-150 | refused with nothing changed unless name, price and category are filled in; otherwise the item with the uploaded image is added, the form is reset and the menu reloaded |
| Admin.AdminView.OpenEditDialog | app/admin/page.tsx:241-249 | the item becomes the one edited, and the form holds its fields with the price as decimal text |
| Admin.AdminView.HandleEditMenu | app/admin/page.tsx:152-187 | refused with nothing changed unless an item is edited and the fields are filled in; otherwise the item is merged with the form and the kept or new image |
| Admin.AdminView.HandleDeleteMenu | app/admin/page.tsx:189-200 | nothing changes unless confirmed; otherwise the item is deleted and the menu reloaded |
| Admin.AdminView.HandleImageUpload | app/admin/page.tsx:229-239 | the form records a chosen file and its data URI as preview |
| Admin.AdminView.HandleCompleteOrderClick | app/admin/page.tsx:202-205 | the order is remembered and the dialog is shown |
| Admin.AdminView.HandleCompleteOrderConfirm | app/admin/page.tsx:207-221 | with an order chosen, it is deleted by id (no status change), the dialog is closed and the pending orders are reloaded |
| Admin.AdminView.HandleLogout | app/admin/page.tsx:223-226 | both session keys are removed |

## Left out

- The server-side branch (`typeof window === "undefined"`) is not modelled. The model always runs in a browser.
- JSON serialisation of the stored entries is left out. `localStorage` holds the decoded lists and the cart map directly.
- `Date.now()`, ISO timestamps and `Number.parseInt` are left out. Ids, clocks, creation times and parsed numbers are parameters.
  - A price that does not parse (NaN) is not modelled; prices are integers.
  - A login time that does not parse is `None`. It passes the session check, as the comparison with NaN does in the source.
- The Supabase client, its query builders and the network are left out. Each call is an `Outcome` parameter.
  - The fields the remote assigns on insert are whatever the `Ok` value carries.
  - A successful reply with no data is not distinguished from an empty list.
  - A thrown exception is `Failed`, like an error reply.
- `uploadImage` is left out in part. FileReader's base64 encoding is a `dataUri` parameter, and the bucket upload is an `Outcome`.
- Realtime callbacks, `Promise.all`, the loading flags, `alert`, `confirm`, `router.push`, the connection banner's timer and the JSX rendering are left out.
  - `Admin.AdminView.Mount` loads the menu and then the pending orders one after the other.
  - The confirmation answer is a parameter of `Admin.AdminView.HandleDeleteMenu`.
- The order in which `Object.entries` lists the cart's keys is left out. It is the parameter `keys` of `Checkout.CartItems`, which requires only that every key is in the cart. `Checkout.CheckoutView.SubmitOrder` also requires that `keys` lists each cart key exactly once.
- The two modules `lib/storage.ts` and `lib/supabase.ts` share the `restaurant_menu` and `restaurant_orders` keys. Here they are two separate objects, and the pages use only the second.
- `addMenuItem` and `addOrder` in `lib/supabase.ts` never return null (`data || newItem`). The pages' "failed" branches after them are therefore unreachable, and the model has none.
- `Admin.AdminView.HandleAddMenu` does not check the result of the add, because that result is never null.
- `Records.FallbackMenuItems` gives all six items one shared creation time, the parameter `loadedAt`. The source calls `new Date().toISOString()` once per item, so the six times may differ by a few milliseconds.
- The display formatting `toLocaleString("id-ID")` is left out.
- `HomePage.CartItemsCount` is a ghost sum over the cart's keys rather than a left-to-right `reduce`. Addition is commutative, so the two agree.
- Id uniqueness is not claimed, because ids come from the clock with no collision check.

=== FILE: admin.dfy ===
/** The admin page `app/admin/page.tsx`: the 24-hour session check, the
    guarded add and edit handlers, the image kept on edit, completing an
    order by deleting it, and logout. */
module Admin {
  import opened Wrappers
  import opened Records
  import Supabase
  import Browser
  import Lists

  /** 24 hours in milliseconds. */
  const SessionLifetimeMs: int := 24 * 60 * 60 * 1000

  /** A stored string that JavaScript treats as true: present, non-empty. */
  predicate Truthy(s: Option<string>) {
    s.Some? && s.value != ""
  }

  /** The session test of the first effect. `loginTime` is what
      `Number.parseInt` makes of the stored login time, `None` for NaN; a
      comparison with NaN is false, so it never expires the session. */
  predicate SessionValid(loggedIn: Option<string>, loginTimeText: Option<string>, loginTime: Option<int>, now: int) {
    && Truthy(loggedIn)
    && Truthy(loginTimeText)
    && !(loginTime.Some? && now - loginTime.value > SessionLifetimeMs)
  }

  /** The menu dialog's form; the price is still text. */
  datatype MenuForm = MenuForm(name: string, price: string, category: string, imageChosen: bool, imagePreview: string)

  const EmptyForm: MenuForm := MenuForm("", "", "", false, "")

  /** The guard shared by adding and editing: every required field filled
      in (no trimming here, unlike checkout). */
  predicate RequiredFieldsFilled(form: MenuForm) {
    form.name != "" && form.price != "" && form.category != ""
  }

  function DigitChar(d: int): char
    requires 0 <= d < 10
  {
    "0123456789"[d]
  }

  function Digits(n: nat): (s: string)
    ensures |s| > 0
  {
    if n < 10 then [DigitChar(n)] else Digits(n / 10) + [DigitChar(n % 10)]
  }

  /** `price.toString()` for an integer price. */
  function DecimalString(n: int): (s: string)
    ensures |s| > 0
  {
    if n < 0 then "-" + Digits(-n) else Digits(n)
  }

  /** Steps of `handleEditMenu` that pick the image: keep the item's
      image unless a new file was chosen and its upload gave a non-empty
      reference. */
  method ChooseImageUrl(env: Supabase.Env, current: Option<string>, imageChosen: bool,
                        dataUri: string, upload: Supabase.Outcome<string>)
    returns (imageUrl: Option<string>)
    requires Supabase.Agrees(env, upload)
    ensures var uploaded := if upload.Ok? then upload.data else dataUri;
            imageUrl == if imageChosen && uploaded != "" then Some(uploaded) else current
  {
    imageUrl := current;
    if imageChosen {
      var newImageUrl := Supabase.UploadImage(env, dataUri, upload);
      if newImageUrl != "" {
        imageUrl := Some(newImageUrl);
      }
    }
  }

  // ----- What the gates guarantee -----

  /** A session with a numeric login time lasts exactly 24 hours: still
      valid at the last millisecond, expired one millisecond later, and
      valid at every earlier moment once valid at a later one. */
  lemma SessionLastsADay(loggedIn: Option<string>, loginTimeText: Option<string>, t: int, now: int, earlier: int)
    requires Truthy(loggedIn) && Truthy(loginTimeText)
    ensures SessionValid(loggedIn, loginTimeText, Some(t), t + SessionLifetimeMs)
    ensures !SessionValid(loggedIn, loginTimeText, Some(t), t + SessionLifetimeMs + 1)
    ensures SessionValid(loggedIn, loginTimeText, Some(t), now) && earlier <= now ==>
              SessionValid(loggedIn, loginTimeText, Some(t), earlier)
  {
  }

  /** Without the login flag or the login time there is no session, and a
      login time that does not parse never expires. */
  lemma SessionNeedsBothKeys(loggedIn: Option<string>, loginTimeText: Option<string>, loginTime: Option<int>, now: int)
    ensures !Truthy(loggedIn) ==> !SessionValid(loggedIn, loginTimeText, loginTime, now)
    ensures !Truthy(loginTimeText) ==> !SessionValid(loggedIn, loginTimeText, loginTime, now)
    ensures Truthy(loggedIn) && Truthy(loginTimeText) && loginTime.None? ==>
              SessionValid(loggedIn, loginTimeText, loginTime, now)
  {
  }

  /** After opening the edit dialog the price field is never empty, so
      only an emptied name or category can block the edit. */
  lemma EditDialogPriceFilled(item: MenuItem)
    ensures RequiredFieldsFilled(MenuForm(item.name, DecimalString(item.price), item.category, false, item.imageUrl.GetOr("")))
        <==> item.name != "" && item.category != ""
  {
  }

  /** Completing an order removes exactly the orders with its id from the
      mirrored list and keeps every other order, unchanged and as often as
      before; no order is marked completed. */
  lemma {:induction false} CompletionDeletes(orders: seq<Order>, id: int)
    ensures forall o: Order :: multiset(Supabase.RemoveOrder(orders, id))[o] == if o.id != id then multiset(orders)[o] else 0
  {
    forall o: Order
      ensures multiset(Supabase.RemoveOrder(orders, id))[o] == if o.id != id then multiset(orders)[o] else 0
    {
      Lists.FilterCount(orders, Supabase.OrderIdIsNot(id), o);
    }
  }

  /** The admin page's state. */
  class AdminView {
    const storage: Browser.LocalStorage
    const env: Supabase.Env
    var menuItems: seq<MenuItem>
    var orders: seq<Order>
    var isAddMenuOpen: bool
    var editingItem: Option<MenuItem>
    var orderToComplete: Option<Order>
    var showCompleteDialog: bool
    var form: MenuForm

    constructor (storage: Browser.LocalStorage, env: Supabase.Env)
      ensures this.storage == storage && this.env == env
      ensures menuItems == [] && orders == [] && !isAddMenuOpen && !showCompleteDialog
      ensures editingItem == None && orderToComplete == None && form == EmptyForm
    {
      this.storage, this.env := storage, env;
      menuItems, orders := [], [];
      isAddMenuOpen, showCompleteDialog := false, false;
      editingItem, orderToComplete := None, None;
      form := EmptyForm;
    }

    /** The first effect. An invalid session removes both session keys and
        loads nothing; a valid one loads the menu and the pending orders. */
    method Mount(now: int, loginTime: Option<int>,
                 menuRead: Supabase.Outcome<seq<MenuItem>>, ordersRead: Supabase.Outcome<seq<Order>>)
      returns (loaded: bool)
      requires Supabase.Agrees(env, menuRead) && Supabase.Agrees(env, ordersRead)
      modifies this`menuItems, this`orders
      modifies storage`menu, storage`orders, storage`adminLoggedIn, storage`adminLoginTime
      ensures loaded == SessionValid(old(storage.adminLoggedIn), old(storage.adminLoginTime), loginTime, now)
      ensures !loaded ==>
        && storage.adminLoggedIn == None && storage.adminLoginTime == None
        && Supabase.MirrorOf(storage) == old(Supabase.MirrorOf(storage))
        && menuItems == old(menuItems) && orders == old(orders)
      ensures loaded ==>
        var menu := Supabase.MenuRead(old(Supabase.MirrorOf(storage)), env, menuRead);
        var pending := Supabase.PendingRead(menu.mirror, env, ordersRead);
        && storage.adminLoggedIn == old(storage.adminLoggedIn)
        && storage.adminLoginTime == old(storage.adminLoginTime)
        && menuItems == menu.value && orders == pending.value
        && Supabase.MirrorOf(storage) == pending.mirror
    {
      var isLoggedIn := storage.adminLoggedIn;
      var loginTimeText := storage.adminLoginTime;
      if !Truthy(isLoggedIn) || !Truthy(loginTimeText) || (loginTime.Some? && now - loginTime.value > SessionLifetimeMs) {
        storage.adminLoggedIn := None;
        storage.adminLoginTime := None;
        return false;
      }
      menuItems := Supabase.GetMenuItems(storage, env, menuRead);
      orders := Supabase.GetPendingOrders(storage, env, ordersRead);
      loaded := true;
    }

    /** `handleAddMenu`: refused unless name, price and category are filled
        in; otherwise the item (with the uploaded image, if a file was
        chosen) is added, the form reset and the menu reloaded. */
    method HandleAddMenu(price: int, now: int, createdAt: string, dataUri: string,
                         upload: Supabase.Outcome<string>, read: Supabase.Outcome<seq<MenuItem>>,
                         insert: Supabase.Outcome<MenuItem>, reload: Supabase.Outcome<seq<MenuItem>>)
      returns (added: bool)
      requires Supabase.Agrees(env, upload) && Supabase.Agrees(env, read)
      requires Supabase.Agrees(env, insert) && Supabase.Agrees(env, reload)
      modifies this`menuItems, this`form, this`isAddMenuOpen, storage`menu, storage`orders
      ensures added == RequiredFieldsFilled(old(form))
      ensures !added ==> unchanged(storage) && unchanged(this)
      ensures added ==>
        var uploaded := if upload.Ok? then upload.data else dataUri;
        var imageUrl := if old(form).imageChosen then Some(uploaded) else None;
        var item := Supabase.NewMenuItem(MenuItemInput(old(form).name, price, old(form).category, imageUrl), now, createdAt);
        var after := Supabase.MenuRead(Supabase.MenuAfterAdd(old(Supabase.MirrorOf(storage)), env, read, item), env, reload);
        && Supabase.MirrorOf(storage) == after.mirror
        && menuItems == after.value
        && form == EmptyForm && !isAddMenuOpen
    {
      if !(form.name != "" && form.price != "" && form.category != "") {
        return false;
      }
      var imageUrl: Option<string> := None;
      if form.imageChosen {
        var reference := Supabase.UploadImage(env, dataUri, upload);
        imageUrl := Some(reference);
      }
      var result := Supabase.AddMenuItem(storage, env, MenuItemInput(form.name, price, form.category, imageUrl),
                                         now, createdAt, read, insert);
      form := EmptyForm;
      isAddMenuOpen := false;
      menuItems := Supabase.GetMenuItems(storage, env, reload);
      added := true;
    }

    /** `openEditDialog` */
    method OpenEditDialog(item: MenuItem)
      modifies this`editingItem, this`form
      ensures editingItem == Some(item)
      ensures form == MenuForm(item.name, DecimalString(item.price), item.category, false, item.imageUrl.GetOr(""))
    {
      editingItem := Some(item);
      form := MenuForm(item.name, DecimalString(item.price), item.category, false, item.imageUrl.GetOr(""));
    }

    /** `handleEditMenu`: refused unless an item is being edited and every
        required field is filled in; otherwise the item's name, price,
        category and image are updated, the dialog closed and the menu
        reloaded. Whatever the service answers, the update reports success. */
    method HandleEditMenu(price: int, dataUri: string, upload: Supabase.Outcome<string>,
                          read: Supabase.Outcome<seq<MenuItem>>, write: Supabase.Outcome<()>,
                          reload: Supabase.Outcome<seq<MenuItem>>)
      returns (saved: bool)
      requires Supabase.Agrees(env, upload) && Supabase.Agrees(env, read)
      requires Supabase.Agrees(env, write) && Supabase.Agrees(env, reload)
      modifies this`menuItems, this`form, this`editingItem, storage`menu, storage`orders
      ensures saved == (RequiredFieldsFilled(old(form)) && old(editingItem).Some?)
      ensures !saved ==> unchanged(storage) && unchanged(this)
      ensures saved ==>
        var item := old(editingItem).value;
        var uploaded := if upload.Ok? then upload.data else dataUri;
        var imageUrl := if old(form).imageChosen && uploaded != "" then Some(uploaded) else item.imageUrl;
        var patch := MenuItemPatch(None, Some(old(form).name), Some(price), Some(old(form).category), Some(imageUrl), None);
        var after := Supabase.MenuRead(Supabase.MenuAfterUpdate(old(Supabase.MirrorOf(storage)), env, read, item.id, patch), env, reload);
        && Supabase.MirrorOf(storage) == after.mirror
        && menuItems == after.value
        && editingItem == None && form == EmptyForm
    {
      if form.name == "" || form.price == "" || form.category == "" || editingItem.None? {
        return false;
      }
      var item := editingItem.value;
      var imageUrl := ChooseImageUrl(env, item.imageUrl, form.imageChosen, dataUri, upload);
      var patch := MenuItemPatch(None, Some(form.name), Some(price), Some(form.category), Some(imageUrl), None);
      var success := Supabase.UpdateMenuItem(storage, env, item.id, patch, read, write);
      if success {
        editingItem := None;
        form := EmptyForm;
        menuItems := Supabase.GetMenuItems(storage, env, reload);
      }
      saved := success;
    }

    /** `handleDeleteMenu`, with the answer to the confirmation prompt. */
    method HandleDeleteMenu(id: int, confirmed: bool, read: Supabase.Outcome<seq<MenuItem>>,
                            write: Supabase.Outcome<()>, reload: Supabase.Outcome<seq<MenuItem>>)
      returns (deleted: bool)
      requires Supabase.Agrees(env, read) && Supabase.Agrees(env, write) && Supabase.Agrees(env, reload)
      modifies this`menuItems, storage`menu, storage`orders
      ensures deleted == confirmed
      ensures !deleted ==> unchanged(storage) && unchanged(this)
      ensures deleted ==>
        var after := Supabase.MenuRead(Supabase.MenuAfterDelete(old(Supabase.MirrorOf(storage)), env, read, id), env, reload);
        Supabase.MirrorOf(storage) == after.mirror && menuItems == after.value
    {
      if !confirmed {
        return false;
      }
      var success := Supabase.DeleteMenuItem(storage, env, id, read, write);
      if success {
        menuItems := Supabase.GetMenuItems(storage, env, reload);
      }
      deleted := success;
    }

    /** `handleImageUpload` once the file reader has produced the file's
        data URI. */
    method HandleImageUpload(dataUri: string)
      modifies this`form
      ensures form == old(form).(imageChosen := true, imagePreview := dataUri)
    {
      form := form.(imageChosen := true, imagePreview := dataUri);
    }

    /** `handleCompleteOrderClick` */
    method HandleCompleteOrderClick(order: Order)
      modifies this`orderToComplete, this`showCompleteDialog
      ensures orderToComplete == Some(order) && showCompleteDialog
    {
      orderToComplete := Some(order);
      showCompleteDialog := true;
    }

    /** `handleCompleteOrderConfirm`: completing an order deletes it by id;
        its status is never set to completed. */
    method HandleCompleteOrderConfirm(read: Supabase.Outcome<seq<Order>>, write: Supabase.Outcome<()>,
                                      reload: Supabase.Outcome<seq<Order>>)
      returns (completed: bool)
      requires Supabase.Agrees(env, read) && Supabase.Agrees(env, write) && Supabase.Agrees(env, reload)
      modifies this`orders, this`orderToComplete, this`showCompleteDialog, storage`menu, storage`orders
      ensures completed == old(orderToComplete).Some?
      ensures !completed ==> unchanged(storage) && unchanged(this)
      ensures completed ==>
        var id := old(orderToComplete).value.id;
        var after := Supabase.PendingRead(Supabase.OrdersAfterDelete(old(Supabase.MirrorOf(storage)), env, read, id), env, reload);
        && Supabase.MirrorOf(storage) == after.mirror
        && orders == after.value
        && orderToComplete == None && !showCompleteDialog
    {
      if orderToComplete.None? {
        return false;
      }
      var order := orderToComplete.value;
      var success := Supabase.DeleteOrder(storage, env, order.id, read, write);
      if success {
        showCompleteDialog := false;
        orderToComplete := None;
        orders := Supabase.GetPendingOrders(storage, env, reload);
      }
      completed := success;
    }

    /** `handleLogout` removes both session keys. */
    method HandleLogout()
      modifies storage`adminLoggedIn, storage`adminLoginTime
      ensures storage.adminLoggedIn == None && storage.adminLoginTime == None
    {
      storage.adminLoggedIn := None;
      storage.adminLoginTime := None;
    }
  }
}

=== FILE: browser.dfy ===
/** The browser's localStorage, reduced to the five keys the application
    reads and writes. Each field is `None` while its key is absent. JSON
    encoding is not modelled: an entry holds the value it was set to. */
module Browser {
  import opened Wrappers
  import Records

  class LocalStorage {
    /** `restaurant_menu` */
    var menu: Option<seq<Records.MenuItem>>
    /** `restaurant_orders` */
    var orders: Option<seq<Records.Order>>
    /** `restaurant_cart`: menu-item id to quantity */
    var cart: Option<map<int, int>>
    /** `adminLoggedIn` */
    var adminLoggedIn: Option<string>
    /** `adminLoginTime` */
    var adminLoginTime: Option<string>

    /** A browser that has never run the application. */
    constructor ()
      ensures menu == None && orders == None && cart == None
      ensures adminLoggedIn == None && adminLoginTime == None
    {
      menu, orders, cart := None, None, None;
      adminLoggedIn, adminLoginTime := None, None;
    }
  }
}

=== FILE: checkout.dfy ===
/** The checkout page `app/checkout/page.tsx`: quantity changes, the join
    of the cart against the menu, the total, and the submission handler
    that validates the form, builds the order and clears the saved cart. */
module Checkout {
  import opened Wrappers
  import Lists
  import opened Records
  import Supabase
  import Browser
  import HomePage

  /** The cart `updateCartItem` builds: the new count is stored when it is
      positive, otherwise the key goes. */
  function CartAfterChange(cart: HomePage.Cart, id: int, change: int): (r: HomePage.Cart)
    ensures HomePage.Quantity(cart, id) + change > 0 ==> id in r && r[id] == HomePage.Quantity(cart, id) + change
    ensures HomePage.Quantity(cart, id) + change <= 0 ==> id !in r
    ensures forall k :: k != id ==> (k in r <==> k in cart)
    ensures forall k :: k in cart && k != id ==> r[k] == cart[k]
  {
    var newCount := HomePage.Quantity(cart, id) + change;
    if newCount <= 0 then cart - {id} else cart[id := newCount]
  }

  /** A cart entry joined with its menu item (`{ ...item, quantity }`). */
  datatype CartLine = CartLine(item: MenuItem, quantity: int)

  /** `Object.entries(cart)` lists every key of the cart exactly once. */
  predicate EnumeratesCart(keys: seq<int>, cart: HomePage.Cart) {
    && (forall i :: 0 <= i < |keys| ==> keys[i] in cart)
    && (forall id :: id in cart ==> id in keys)
    && (forall i, j :: 0 <= i < j < |keys| ==> keys[i] != keys[j])
  }

  /** `menuItems.find`: the first item with the id, if any. */
  function Find(menu: seq<MenuItem>, id: int): (r: Option<MenuItem>)
    ensures r.Some? ==> r.value in menu && r.value.id == id
    ensures r.None? ==> forall i :: 0 <= i < |menu| ==> menu[i].id != id
  {
    if menu == [] then None
    else if menu[0].id == id then Some(menu[0])
    else Find(menu[1..], id)
  }

  function OnMenu(menu: seq<MenuItem>): int -> bool {
    (id: int) => Find(menu, id).Some?
  }

  /** `cartItems`: the cart entries, in enumeration order, whose id is on
      the menu, each joined with that item and carrying its quantity. */
  function CartItems(cart: HomePage.Cart, menu: seq<MenuItem>, keys: seq<int>): (r: seq<CartLine>)
    requires forall i :: 0 <= i < |keys| ==> keys[i] in cart
    ensures |r| <= |keys|
    ensures forall i :: 0 <= i < |r| ==> r[i].item in menu && r[i].item.id in cart && r[i].quantity == cart[r[i].item.id]
  {
    if keys == [] then []
    else
      (match Find(menu, keys[0])
       case Some(item) => [CartLine(item, cart[keys[0]])]
       case None => [])
      + CartItems(cart, menu, keys[1..])
  }

  /** `totalPrice` */
  function TotalPrice(lines: seq<CartLine>): int {
    if lines == [] then 0 else lines[0].item.price * lines[0].quantity + TotalPrice(lines[1..])
  }

  function ToOrderItem(line: CartLine): OrderItem {
    OrderItem(line.item.name, line.quantity, line.item.price)
  }

  /** The name, quantity and unit price of each line, copied. */
  function Snapshot(lines: seq<CartLine>): seq<OrderItem> {
    Lists.MapSeq(lines, ToOrderItem)
  }

  // ----- Form validation -----

  /** The characters `String.prototype.trim` strips: the ECMAScript
      WhiteSpace and LineTerminator code points. */
  predicate IsWhiteSpace(c: char) {
    var n := c as int;
    || (0x09 <= n <= 0x0D) || n == 0x20 || n == 0xA0 || n == 0x1680
    || (0x2000 <= n <= 0x200A) || n == 0x2028 || n == 0x2029 || n == 0x202F
    || n == 0x205F || n == 0x3000 || n == 0xFEFF
  }

  predicate Blank(s: string) {
    forall i :: 0 <= i < |s| ==> IsWhiteSpace(s[i])
  }

  function TrimStart(s: string): (r: string)
    ensures |r| <= |s| && r == s[|s| - |r|..]
    ensures forall i :: 0 <= i < |s| - |r| ==> IsWhiteSpace(s[i])
    ensures r != [] ==> !IsWhiteSpace(r[0])
  {
    if s != [] && IsWhiteSpace(s[0]) then TrimStart(s[1..]) else s
  }

  function TrimEnd(s: string): (r: string)
    ensures |r| <= |s| && r == s[..|r|]
    ensures forall i :: |r| <= i < |s| ==> IsWhiteSpace(s[i])
    ensures r != [] ==> !IsWhiteSpace(r[|r| - 1])
  {
    if s != [] && IsWhiteSpace(s[|s| - 1]) then TrimEnd(s[..|s| - 1]) else s
  }

  /** `s.trim()` */
  function Trim(s: string): string {
    TrimEnd(TrimStart(s))
  }

  /** The fields of the checkout form, untrimmed. */
  datatype CheckoutForm = CheckoutForm(
    orderType: OrderType,
    customerName: string,
    tableNumber: string,
    address: string,
    phoneNumber: string)

  /** Why a submission was turned away, one per guard. */
  datatype Rejection = NameMissing | TableMissing | AddressOrPhoneMissing | CartEmpty

  /** The guards of `handleSubmitOrder`, in their order. */
  function Validate(form: CheckoutForm, lines: seq<CartLine>): Option<Rejection> {
    if Trim(form.customerName) == [] then Some(NameMissing)
    else if form.orderType == DineIn && Trim(form.tableNumber) == [] then Some(TableMissing)
    else if form.orderType == Takeaway && (Trim(form.address) == [] || Trim(form.phoneNumber) == []) then
      Some(AddressOrPhoneMissing)
    else if |lines| == 0 then Some(CartEmpty)
    else None
  }

  /** `orderData`: trimmed fields, the table number only for dine-in, the
      address and phone only for takeaway, the line snapshots and the total. */
  function BuildOrder(form: CheckoutForm, lines: seq<CartLine>): OrderInput {
    OrderInput(
      Trim(form.customerName),
      form.orderType,
      if form.orderType == DineIn then Some(Trim(form.tableNumber)) else None,
      if form.orderType == DineIn then None else Some(Trim(form.address)),
      if form.orderType == DineIn then None else Some(Trim(form.phoneNumber)),
      Snapshot(lines),
      TotalPrice(lines))
  }

  // ----- What the checkout computations guarantee -----

  /** One step up and one step down on the checkout page are the menu
      page's add and remove. */
  lemma UpdateCartItemMatchesHome(cart: HomePage.Cart, id: int)
    requires HomePage.AllPositive(cart)
    ensures CartAfterChange(cart, id, 1) == HomePage.AddOne(cart, id)
    ensures CartAfterChange(cart, id, -1) == HomePage.RemoveOne(cart, id)
  {
  }

  /** Quantity changes keep every stored quantity positive. */
  lemma UpdateCartItemKeepsPositive(cart: HomePage.Cart, id: int, change: int)
    requires HomePage.AllPositive(cart)
    ensures HomePage.AllPositive(CartAfterChange(cart, id, change))
  {
  }

  /** `find` returns the first item with the id. */
  lemma {:induction false} FindFirst(menu: seq<MenuItem>, id: int, i: int)
    requires 0 <= i < |menu| && menu[i].id == id
    requires forall j :: 0 <= j < i ==> menu[j].id != id
    ensures Find(menu, id) == Some(menu[i])
  {
    if i > 0 {
      FindFirst(menu[1..], id, i - 1);
    }
  }

  /** The join is the enumeration filtered to ids on the menu, each id
      paired with its menu item and its cart quantity. */
  lemma {:induction false} CartItemsIsFilteredJoin(cart: HomePage.Cart, menu: seq<MenuItem>, keys: seq<int>)
    requires forall i :: 0 <= i < |keys| ==> keys[i] in cart
    ensures var kept := Lists.Filter(keys, OnMenu(menu));
            && |CartItems(cart, menu, keys)| == |kept|
            && forall i :: 0 <= i < |kept| ==>
                 kept[i] in cart && Find(menu, kept[i]).Some? &&
                 CartItems(cart, menu, keys)[i] == CartLine(Find(menu, kept[i]).value, cart[kept[i]])
  {
    if keys != [] {
      CartItemsIsFilteredJoin(cart, menu, keys[1..]);
    }
  }

  /** The items snapshot carries the cart total: the order's total is the
      sum of quantity times price over its own line items. */
  lemma {:induction false} SnapshotTotal(lines: seq<CartLine>)
    ensures ItemsTotal(Snapshot(lines)) == TotalPrice(lines)
  {
    if lines != [] {
      SnapshotTotal(lines[1..]);
      assert Snapshot(lines)[1..] == Snapshot(lines[1..]);
    }
  }

  /** With non-negative prices and positive quantities the total is not
      negative. */
  lemma {:induction false} TotalPriceNonNegative(lines: seq<CartLine>)
    requires forall i :: 0 <= i < |lines| ==> lines[i].item.price >= 0 && lines[i].quantity > 0
    ensures TotalPrice(lines) >= 0
  {
    if lines != [] {
      TotalPriceNonNegative(lines[1..]);
    }
  }

  /** `trim()` yields the empty string exactly for blank input. */
  lemma TrimEmptyIffBlank(s: string)
    ensures Trim(s) == [] <==> Blank(s)
  {
    var t := TrimStart(s);
    if t != [] {
      assert s[|s| - |t|] == t[0];
    }
  }

  /** A submission gets through the guards exactly when the name is not
      blank, the fields of the chosen order type are not blank and the
      joined cart is not empty; a blank name is always reported first. */
  lemma ValidateAccepts(form: CheckoutForm, lines: seq<CartLine>)
    ensures Validate(form, lines) == None <==>
      && !Blank(form.customerName)
      && (form.orderType == DineIn ==> !Blank(form.tableNumber))
      && (form.orderType == Takeaway ==> !Blank(form.address) && !Blank(form.phoneNumber))
      && lines != []
    ensures Blank(form.customerName) ==> Validate(form, lines) == Some(NameMissing)
  {
    TrimEmptyIffBlank(form.customerName);
    if !Blank(form.customerName) {
      if form.orderType == DineIn {
        TrimEmptyIffBlank(form.tableNumber);
      } else {
        TrimEmptyIffBlank(form.address);
        TrimEmptyIffBlank(form.phoneNumber);
      }
    }
  }

  /** The built order carries the table only for dine-in and the address
      and phone only for takeaway, line snapshots of the cart lines, and a
      total equal to the sum over those snapshots. */
  lemma BuildOrderSpec(form: CheckoutForm, lines: seq<CartLine>)
    ensures form.orderType == DineIn ==>
      BuildOrder(form, lines).tableNumber == Some(Trim(form.tableNumber)) &&
      BuildOrder(form, lines).address == None && BuildOrder(form, lines).phoneNumber == None
    ensures form.orderType == Takeaway ==>
      BuildOrder(form, lines).tableNumber == None &&
      BuildOrder(form, lines).address == Some(Trim(form.address)) &&
      BuildOrder(form, lines).phoneNumber == Some(Trim(form.phoneNumber))
    ensures BuildOrder(form, lines).customerName == Trim(form.customerName)
    ensures |BuildOrder(form, lines).items| == |lines|
    ensures forall i :: 0 <= i < |lines| ==>
      BuildOrder(form, lines).items[i] == OrderItem(lines[i].item.name, lines[i].quantity, lines[i].item.price)
    ensures BuildOrder(form, lines).total == TotalPrice(lines) == ItemsTotal(BuildOrder(form, lines).items)
  {
    SnapshotTotal(lines);
  }

  /** What a press of the order button led to. */
  datatype Submission = Rejected(reason: Rejection) | Placed(order: Order)

  /** The checkout page's state. */
  class CheckoutView {
    const storage: Browser.LocalStorage
    const env: Supabase.Env
    var menuItems: seq<MenuItem>
    var cart: HomePage.Cart
    var orderType: OrderType
    var customerName: string
    var tableNumber: string
    var address: string
    var phoneNumber: string

    constructor (storage: Browser.LocalStorage, env: Supabase.Env)
      ensures this.storage == storage && this.env == env
      ensures menuItems == [] && cart == map[] && orderType == DineIn
      ensures customerName == "" && tableNumber == "" && address == "" && phoneNumber == ""
    {
      this.storage, this.env := storage, env;
      menuItems, cart, orderType := [], map[], DineIn;
      customerName, tableNumber, address, phoneNumber := "", "", "", "";
    }

    function Form(): CheckoutForm
      reads this
    {
      CheckoutForm(orderType, customerName, tableNumber, address, phoneNumber)
    }

    /** `loadData`: load the menu, then restore a saved cart. */
    method LoadData(read: Supabase.Outcome<seq<MenuItem>>)
      requires Supabase.Agrees(env, read)
      modifies this`menuItems, this`cart, storage`menu, storage`orders
      ensures Supabase.Read(Supabase.MirrorOf(storage), menuItems)
           == Supabase.MenuRead(old(Supabase.MirrorOf(storage)), env, read)
      ensures cart == if storage.cart.Some? then storage.cart.value else old(cart)
    {
      menuItems := Supabase.GetMenuItems(storage, env, read);
      if storage.cart.Some? {
        cart := storage.cart.value;
      }
    }

    method UpdateCartItem(id: int, change: int)
      modifies this`cart, storage`cart
      ensures cart == CartAfterChange(old(cart), id, change)
      ensures storage.cart == Some(cart)
    {
      var newCart := cart;
      var currentCount := if id in newCart then newCart[id] else 0;
      var newCount := currentCount + change;
      if newCount <= 0 {
        newCart := newCart - {id};
      } else {
        newCart := newCart[id := newCount];
      }
      storage.cart := Some(newCart);
      cart := newCart;
    }

    /** `handleSubmitOrder`, with `keys` the enumeration order of the cart.
        A rejected submission touches nothing; an accepted one stores the
        pending order in the mirror, then removes the saved cart. */
    method SubmitOrder(keys: seq<int>, now: int, createdAt: string,
                       read: Supabase.Outcome<seq<Order>>, insert: Supabase.Outcome<Order>)
      returns (outcome: Submission)
      requires EnumeratesCart(keys, cart)
      requires Supabase.Agrees(env, read) && Supabase.Agrees(env, insert)
      modifies storage`menu, storage`orders, storage`cart
      ensures var lines := CartItems(cart, menuItems, keys);
              Validate(Form(), lines).Some? ==>
                outcome == Rejected(Validate(Form(), lines).value) &&
                unchanged(storage)
      ensures var lines := CartItems(cart, menuItems, keys);
              var order := Supabase.NewOrder(BuildOrder(Form(), lines), now, createdAt);
              Validate(Form(), lines).None? ==>
                outcome == Placed(Supabase.Returned(order, insert)) &&
                Supabase.MirrorOf(storage) == Supabase.OrdersAfterAdd(old(Supabase.MirrorOf(storage)), env, read, order) &&
                storage.cart == None
    {
      var lines := CartItems(cart, menuItems, keys);
      var rejection := Validate(Form(), lines);
      if rejection.Some? {
        return Rejected(rejection.value);
      }
      var orderData := BuildOrder(Form(), lines);
      var result := Supabase.AddOrder(storage, env, orderData, now, createdAt, read, insert);
      storage.cart := None;
      outcome := Placed(result);
    }
  }
}

=== FILE: home.dfy ===
/** The customer menu page `app/page.tsx`: the cart kept as a map from
    menu-item id to quantity, the category filter, and the item count
    shown on the cart button. */
module HomePage {
  import opened Wrappers
  import Lists
  import Records
  import Supabase
  import Browser

  /** Menu-item id to quantity; the handlers never store a quantity of 0. */
  type Cart = map<int, int>

  const AllCategories: string := "Semua"

  predicate AllPositive(cart: Cart) {
    forall id :: id in cart ==> cart[id] > 0
  }

  /** `cart[id] || 0` */
  function Quantity(cart: Cart, id: int): int {
    if id in cart then cart[id] else 0
  }

  /** The cart `addToCart` builds. */
  function AddOne(cart: Cart, id: int): (r: Cart)
    ensures r.Keys == cart.Keys + {id}
    ensures r[id] == Quantity(cart, id) + 1
    ensures forall k :: k in cart && k != id ==> r[k] == cart[k]
  {
    cart[id := Quantity(cart, id) + 1]
  }

  /** The cart `removeFromCart` builds: a quantity above one goes down by
      one, anything else loses its key. */
  function RemoveOne(cart: Cart, id: int): (r: Cart)
    ensures id in cart && cart[id] > 1 ==> r.Keys == cart.Keys && r[id] == cart[id] - 1
    ensures !(id in cart && cart[id] > 1) ==> r.Keys == cart.Keys - {id}
    ensures forall k :: k in cart && k != id ==> k in r && r[k] == cart[k]
  {
    if id in cart && cart[id] > 1 then cart[id := cart[id] - 1] else cart - {id}
  }

  /** `filteredItems`: the whole menu for "Semua", otherwise the items of
      the chosen category in menu order. */
  function FilteredItems(menu: seq<Records.MenuItem>, category: string): (r: seq<Records.MenuItem>)
    ensures category == AllCategories ==> r == menu
    ensures category != AllCategories ==>
      (forall i :: 0 <= i < |r| ==> r[i] in menu && r[i].category == category) &&
      (forall i :: 0 <= i < |menu| && menu[i].category == category ==> menu[i] in r)
  {
    if category == AllCategories then menu else Lists.Filter(menu, InCategory(category))
  }

  function InCategory(category: string): Records.MenuItem -> bool {
    (item: Records.MenuItem) => item.category == category
  }

  /** `cartItemsCount`: the sum of all quantities in the cart, whatever
      order its entries are enumerated in. */
  ghost function CartItemsCount(cart: Cart): int {
    SumOver(cart, cart.Keys)
  }

  /** The sum of the quantities stored under `keys`. */
  ghost function SumOver(cart: Cart, keys: set<int>): int
    requires keys <= cart.Keys
  {
    if keys == {} then 0
    else
      NonEmptyHasKey(keys);
      var id :| id in keys;
      cart[id] + SumOver(cart, keys - {id})
  }

  lemma NonEmptyHasKey(keys: set<int>)
    requires keys != {}
    ensures exists id :: id in keys
  {
    if forall id :: id !in keys {
      assert false;
    }
  }

  // ----- What the cart operations guarantee -----

  /** The sum may be taken apart at any key, not only the one its
      definition happens to pick. */
  lemma {:induction false} SumSplit(cart: Cart, keys: set<int>, id: int)
    requires keys <= cart.Keys && id in keys
    ensures SumOver(cart, keys) == cart[id] + SumOver(cart, keys - {id})
    decreases keys
  {
    var j :| j in keys && SumOver(cart, keys) == cart[j] + SumOver(cart, keys - {j});
    if j != id {
      SumSplit(cart, keys - {j}, id);
      SumSplit(cart, keys - {id}, j);
      assert keys - {j} - {id} == keys - {id} - {j};
    }
  }

  /** The sum over `keys` depends only on the quantities under `keys`. */
  lemma {:induction false} SumAgree(a: Cart, b: Cart, keys: set<int>)
    requires keys <= a.Keys && keys <= b.Keys
    requires forall id :: id in keys ==> a[id] == b[id]
    ensures SumOver(a, keys) == SumOver(b, keys)
    decreases keys
  {
    if keys != {} {
      NonEmptyHasKey(keys);
      var j :| j in keys;
      SumSplit(a, keys, j);
      SumSplit(b, keys, j);
      SumAgree(a, b, keys - {j});
    }
  }

  /** Both handlers keep every stored quantity positive. */
  lemma CartStaysPositive(cart: Cart, id: int)
    requires AllPositive(cart)
    ensures AllPositive(AddOne(cart, id))
    ensures AllPositive(RemoveOne(cart, id))
  {
  }

  /** No handler ever stores a zero quantity. */
  lemma RemoveOneNeverStoresZero(cart: Cart, id: int)
    ensures id in RemoveOne(cart, id) ==> RemoveOne(cart, id)[id] > 0
  {
  }

  /** Adding an item and then removing it gives back the original cart. */
  lemma AddThenRemove(cart: Cart, id: int)
    requires AllPositive(cart)
    ensures RemoveOne(AddOne(cart, id), id) == cart
  {
    var r := RemoveOne(AddOne(cart, id), id);
    assert r.Keys == cart.Keys;
  }

  /** Adding an item raises the cart count by one. */
  lemma {:induction false} AddOneCount(cart: Cart, id: int)
    ensures CartItemsCount(AddOne(cart, id)) == CartItemsCount(cart) + 1
  {
    var added := AddOne(cart, id);
    SumSplit(added, added.Keys, id);
    assert added.Keys - {id} == cart.Keys - {id};
    SumAgree(added, cart, cart.Keys - {id});
    if id in cart {
      SumSplit(cart, cart.Keys, id);
    } else {
      assert cart.Keys - {id} == cart.Keys;
    }
  }

  /** Removing an item that is in a well-formed cart lowers the count by
      one; removing one that is not there changes nothing. */
  lemma {:induction false} RemoveOneCount(cart: Cart, id: int)
    requires AllPositive(cart)
    ensures id in cart ==> CartItemsCount(RemoveOne(cart, id)) == CartItemsCount(cart) - 1
    ensures id !in cart ==> RemoveOne(cart, id) == cart
  {
    var removed := RemoveOne(cart, id);
    if id in cart {
      SumSplit(cart, cart.Keys, id);
      assert removed.Keys - {id} == cart.Keys - {id};
      SumAgree(removed, cart, cart.Keys - {id});
      if cart[id] > 1 {
        SumSplit(removed, removed.Keys, id);
      } else {
        assert removed.Keys == cart.Keys - {id};
      }
    } else {
      assert removed == cart;
    }
  }

  /** Adding item 4 three times and removing it twice leaves one of it; a
      third removal deletes the key instead of storing zero. */
  lemma CartRoundTripExample()
    ensures RemoveOne(RemoveOne(AddOne(AddOne(AddOne(map[], 4), 4), 4), 4), 4) == map[4 := 1]
    ensures RemoveOne(map[4 := 1], 4) == map[]
  {
    assert AddOne(AddOne(AddOne(map[], 4), 4), 4) == map[4 := 3];
    assert RemoveOne(map[4 := 3], 4) == map[4 := 2];
  }

  /** Filtering by a category keeps the menu's order. */
  lemma {:induction false} FilteredItemsKeepOrder(a: seq<Records.MenuItem>, b: seq<Records.MenuItem>, category: string)
    ensures FilteredItems(a + b, category) == FilteredItems(a, category) + FilteredItems(b, category)
  {
    if category != AllCategories {
      Lists.FilterConcat(a, b, InCategory(category));
    }
  }

  /** The menu page's state. */
  class HomeView {
    const storage: Browser.LocalStorage
    const env: Supabase.Env
    var menuItems: seq<Records.MenuItem>
    var cart: Cart
    var selectedCategory: string

    constructor (storage: Browser.LocalStorage, env: Supabase.Env)
      ensures this.storage == storage && this.env == env
      ensures menuItems == [] && cart == map[] && selectedCategory == AllCategories
    {
      this.storage, this.env := storage, env;
      menuItems, cart, selectedCategory := [], map[], AllCategories;
    }

    /** The first effect: load the menu, then restore a saved cart. */
    method Mount(read: Supabase.Outcome<seq<Records.MenuItem>>)
      requires Supabase.Agrees(env, read)
      modifies this`menuItems, this`cart, storage`menu, storage`orders
      ensures Supabase.Read(Supabase.MirrorOf(storage), menuItems)
           == Supabase.MenuRead(old(Supabase.MirrorOf(storage)), env, read)
      ensures cart == if storage.cart.Some? then storage.cart.value else old(cart)
    {
      menuItems := Supabase.GetMenuItems(storage, env, read);
      if storage.cart.Some? {
        cart := storage.cart.value;
      }
    }

    method AddToCart(id: int)
      modifies this`cart, storage`cart
      ensures cart == AddOne(old(cart), id)
      ensures storage.cart == Some(cart)
    {
      var newCart := cart[id := Quantity(cart, id) + 1];
      storage.cart := Some(newCart);
      cart := newCart;
    }

    method RemoveFromCart(id: int)
      modifies this`cart, storage`cart
      ensures cart == RemoveOne(old(cart), id)
      ensures storage.cart == Some(cart)
    {
      var newCart := cart;
      if id in newCart && newCart[id] > 1 {
        newCart := newCart[id := newCart[id] - 1];
      } else {
        newCart := newCart - {id};
      }
      storage.cart := Some(newCart);
      cart := newCart;
    }

    method SelectCategory(category: string)
      modifies this`selectedCategory
      ensures selectedCategory == category
    {
      selectedCategory := category;
    }
  }
}

=== FILE: lists.dfy ===
/** The two list transformations the data layer is built from: the
    `Array.prototype.filter` of a list against a test, and the
    `Array.prototype.map` of a list through a function. */
module Lists {

  /** The elements of `s` that pass `keep`, in their original order. */
  function Filter<T>(s: seq<T>, keep: T -> bool): (r: seq<T>)
    ensures |r| <= |s|
    ensures forall i :: 0 <= i < |r| ==> r[i] in s && keep(r[i])
    ensures forall i :: 0 <= i < |s| && keep(s[i]) ==> s[i] in r
  {
    if s == [] then []
    else (if keep(s[0]) then [s[0]] else []) + Filter(s[1..], keep)
  }

  /** `s` with every element replaced by its image under `f`. */
  function MapSeq<T, U>(s: seq<T>, f: T -> U): (r: seq<U>)
    ensures |r| == |s|
    ensures forall i :: 0 <= i < |s| ==> r[i] == f(s[i])
  {
    if s == [] then [] else [f(s[0])] + MapSeq(s[1..], f)
  }

  /** Filtering distributes over concatenation: what survives of a prefix
      comes before what survives of the rest, so relative order is kept. */
  lemma {:induction false} FilterConcat<T>(a: seq<T>, b: seq<T>, keep: T -> bool)
    ensures Filter(a + b, keep) == Filter(a, keep) + Filter(b, keep)
  {
    if a == [] {
      assert a + b == b;
    } else {
      assert (a + b)[0] == a[0];
      assert (a + b)[1..] == a[1..] + b;
      FilterConcat(a[1..], b, keep);
    }
  }

  /** Filtering a list with one more element at the end. */
  lemma FilterSnoc<T>(s: seq<T>, x: T, keep: T -> bool)
    ensures Filter(s + [x], keep) == Filter(s, keep) + (if keep(x) then [x] else [])
  {
    FilterConcat(s, [x], keep);
    assert Filter([x], keep) == (if keep(x) then [x] else []) + Filter([], keep);
  }

  /** Every copy of a kept element survives, and no copy of a dropped one:
      filtering loses and duplicates nothing. */
  lemma {:induction false} FilterCount<T>(s: seq<T>, keep: T -> bool, x: T)
    ensures multiset(Filter(s, keep))[x] == if keep(x) then multiset(s)[x] else 0
  {
    if s != [] {
      FilterCount(s[1..], keep, x);
      var head := if keep(s[0]) then [s[0]] else [];
      assert Filter(s, keep) == head + Filter(s[1..], keep);
      assert multiset(Filter(s, keep)) == multiset(head) + multiset(Filter(s[1..], keep));
      assert s == [s[0]] + s[1..];
      assert multiset(s) == multiset([s[0]]) + multiset(s[1..]);
    }
  }
}

=== FILE: records.dfy ===
/** The record shapes of `lib/supabase.ts`, shared by the hosted tables
    `menu_items` and `orders` and by their localStorage mirror, and the
    built-in fallback menu. */
module Records {
  import opened Wrappers

  datatype MenuItem = MenuItem(
    id: int,
    name: string,
    price: int,
    category: string,
    imageUrl: Option<string>,
    createdAt: string)

  datatype OrderItem = OrderItem(name: string, quantity: int, price: int)

  datatype OrderType = DineIn | Takeaway

  datatype Status = Pending | Completed

  datatype Order = Order(
    id: int,
    customerName: string,
    orderType: OrderType,
    tableNumber: Option<string>,
    address: Option<string>,
    phoneNumber: Option<string>,
    items: seq<OrderItem>,
    total: int,
    status: Status,
    createdAt: string)

  /** A menu item as the admin page hands it over (`Omit<MenuItem, "id" | "created_at">`). */
  datatype MenuItemInput = MenuItemInput(name: string, price: int, category: string, imageUrl: Option<string>)

  /** An order as the checkout page hands it over (`Omit<Order, "id" | "created_at" | "status">`). */
  datatype OrderInput = OrderInput(
    customerName: string,
    orderType: OrderType,
    tableNumber: Option<string>,
    address: Option<string>,
    phoneNumber: Option<string>,
    items: seq<OrderItem>,
    total: int)

  /** `Partial<MenuItem>`: each field is either supplied or absent; a
      supplied image reference may itself be null. */
  datatype MenuItemPatch = MenuItemPatch(
    id: Option<int>,
    name: Option<string>,
    price: Option<int>,
    category: Option<string>,
    imageUrl: Option<Option<string>>,
    createdAt: Option<string>)

  const Placeholder: string := "/placeholder.svg?height=200&width=200"

  /** The six demo items; every one carries the time the module was loaded. */
  function FallbackMenuItems(loadedAt: string): seq<MenuItem> {
    [ MenuItem(1, "Nasi Goreng Spesial", 25000, "Makanan Utama", Some(Placeholder), loadedAt),
      MenuItem(2, "Ayam Bakar", 30000, "Makanan Utama", Some(Placeholder), loadedAt),
      MenuItem(3, "Gado-Gado", 20000, "Makanan Utama", Some(Placeholder), loadedAt),
      MenuItem(4, "Es Teh Manis", 5000, "Minuman", Some(Placeholder), loadedAt),
      MenuItem(5, "Jus Jeruk", 8000, "Minuman", Some(Placeholder), loadedAt),
      MenuItem(6, "Es Campur", 12000, "Dessert", Some(Placeholder), loadedAt) ]
  }

  /** The sum of quantity times unit price over an order's line items. */
  function ItemsTotal(items: seq<OrderItem>): int {
    if items == [] then 0 else items[0].quantity * items[0].price + ItemsTotal(items[1..])
  }
}

=== FILE: storage.dfy ===
/** The localStorage-only data store of `lib/storage.ts`: menu items and
    orders kept as two lists under the keys `restaurant_menu` and
    `restaurant_orders`. Every write reads the stored list, transforms it
    and overwrites the entry. */
module Storage {
  import opened Wrappers
  import Lists

  datatype MenuItem = MenuItem(id: int, name: string, price: int, category: string, image: string)

  datatype OrderItem = OrderItem(name: string, quantity: int, price: int)

  datatype OrderType = DineIn | Takeaway

  datatype Status = Pending | Completed

  datatype Order = Order(
    id: int,
    customerName: string,
    orderType: OrderType,
    tableNumber: Option<string>,
    address: Option<string>,
    phoneNumber: Option<string>,
    items: seq<OrderItem>,
    total: int,
    status: Status,
    createdAt: string)

  /** A menu item before it has an id (`Omit<MenuItem, "id">`). */
  datatype MenuItemInput = MenuItemInput(name: string, price: int, category: string, image: string)

  /** An order as the caller supplies it (`Omit<Order, "id" | "createdAt" | "status">`). */
  datatype OrderInput = OrderInput(
    customerName: string,
    orderType: OrderType,
    tableNumber: Option<string>,
    address: Option<string>,
    phoneNumber: Option<string>,
    items: seq<OrderItem>,
    total: int)

  /** `Partial<MenuItem>`: each field is either supplied or absent. */
  datatype MenuItemPatch = MenuItemPatch(
    id: Option<int>,
    name: Option<string>,
    price: Option<int>,
    category: Option<string>,
    image: Option<string>)

  const Placeholder: string := "/placeholder.svg?height=200&width=200"

  /** The six-item menu used when nothing is stored. */
  function DefaultMenuItems(): seq<MenuItem> {
    [ MenuItem(1, "Nasi Goreng Spesial", 25000, "Makanan Utama", Placeholder),
      MenuItem(2, "Ayam Bakar", 30000, "Makanan Utama", Placeholder),
      MenuItem(3, "Gado-Gado", 20000, "Makanan Utama", Placeholder),
      MenuItem(4, "Es Teh Manis", 5000, "Minuman", Placeholder),
      MenuItem(5, "Jus Jeruk", 8000, "Minuman", Placeholder),
      MenuItem(6, "Es Campur", 12000, "Dessert", Placeholder) ]
  }

  /** `{ ...item, ...updates }`: supplied fields win, the others stay. */
  function Merge(item: MenuItem, patch: MenuItemPatch): MenuItem {
    MenuItem(
      patch.id.GetOr(item.id),
      patch.name.GetOr(item.name),
      patch.price.GetOr(item.price),
      patch.category.GetOr(item.category),
      patch.image.GetOr(item.image))
  }

  function MergeIfId(id: int, patch: MenuItemPatch): MenuItem -> MenuItem {
    (item: MenuItem) => if item.id == id then Merge(item, patch) else item
  }

  function ItemIdIsNot(id: int): MenuItem -> bool {
    (item: MenuItem) => item.id != id
  }

  function OrderIdIsNot(id: int): Order -> bool {
    (order: Order) => order.id != id
  }

  predicate IsPending(order: Order) {
    order.status == Pending
  }

  /** The `map` of `updateMenuItem`. */
  function UpdateItems(items: seq<MenuItem>, id: int, patch: MenuItemPatch): seq<MenuItem> {
    Lists.MapSeq(items, MergeIfId(id, patch))
  }

  /** The `filter` of `deleteMenuItem`. */
  function RemoveItem(items: seq<MenuItem>, id: int): seq<MenuItem> {
    Lists.Filter(items, ItemIdIsNot(id))
  }

  /** The `filter` of `deleteOrder`. */
  function RemoveOrder(orders: seq<Order>, id: int): seq<Order> {
    Lists.Filter(orders, OrderIdIsNot(id))
  }

  /** The `filter` of `getPendingOrders`. */
  function PendingOf(orders: seq<Order>): seq<Order> {
    Lists.Filter(orders, IsPending)
  }

  function MenuItemOf(input: MenuItemInput, id: int): MenuItem {
    MenuItem(id, input.name, input.price, input.category, input.image)
  }

  function OrderOf(input: OrderInput, id: int, createdAt: string): Order {
    Order(id, input.customerName, input.orderType, input.tableNumber, input.address,
          input.phoneNumber, input.items, input.total, Pending, createdAt)
  }

  class Store {
    /** The `restaurant_menu` entry; `None` when the key is absent. */
    var menuEntry: Option<seq<MenuItem>>
    /** The `restaurant_orders` entry; `None` when the key is absent. */
    var ordersEntry: Option<seq<Order>>

    constructor ()
      ensures menuEntry == None && ordersEntry == None
    {
      menuEntry, ordersEntry := None, None;
    }

    /** What `getMenuItems` reads: the stored list, else the default menu. */
    function Menu(): seq<MenuItem>
      reads this
    {
      menuEntry.GetOr(DefaultMenuItems())
    }

    /** What `getOrders` reads: the stored list, else none. */
    function Orders(): seq<Order>
      reads this
    {
      ordersEntry.GetOr([])
    }

    method GetMenuItems() returns (items: seq<MenuItem>)
      ensures menuEntry == None ==> items == DefaultMenuItems()
      ensures menuEntry.Some? ==> items == menuEntry.value
    {
      if menuEntry.Some? {
        items := menuEntry.value;
      } else {
        items := DefaultMenuItems();
      }
    }

    method SaveMenuItems(items: seq<MenuItem>)
      modifies this`menuEntry
      ensures menuEntry == Some(items)
    {
      menuEntry := Some(items);
    }

    method AddMenuItem(input: MenuItemInput, now: int) returns (newItem: MenuItem)
      modifies this`menuEntry
      ensures newItem == MenuItemOf(input, now)
      ensures menuEntry == Some(old(Menu()) + [newItem])
    {
      var items := GetMenuItems();
      newItem := MenuItemOf(input, now);
      SaveMenuItems(items + [newItem]);
    }

    method UpdateMenuItem(id: int, updates: MenuItemPatch)
      modifies this`menuEntry
      ensures menuEntry == Some(UpdateItems(old(Menu()), id, updates))
    {
      var items := GetMenuItems();
      SaveMenuItems(UpdateItems(items, id, updates));
    }

    method DeleteMenuItem(id: int)
      modifies this`menuEntry
      ensures menuEntry == Some(RemoveItem(old(Menu()), id))
    {
      var items := GetMenuItems();
      SaveMenuItems(RemoveItem(items, id));
    }

    method GetOrders() returns (orders: seq<Order>)
      ensures ordersEntry == None ==> orders == []
      ensures ordersEntry.Some? ==> orders == ordersEntry.value
    {
      if ordersEntry.Some? {
        orders := ordersEntry.value;
      } else {
        orders := [];
      }
    }

    method SaveOrders(orders: seq<Order>)
      modifies this`ordersEntry
      ensures ordersEntry == Some(orders)
    {
      ordersEntry := Some(orders);
    }

    method AddOrder(input: OrderInput, now: int, createdAt: string) returns (newOrder: Order)
      modifies this`ordersEntry
      ensures newOrder == OrderOf(input, now, createdAt) && newOrder.status == Pending
      ensures ordersEntry == Some(old(Orders()) + [newOrder])
    {
      var orders := GetOrders();
      newOrder := OrderOf(input, now, createdAt);
      SaveOrders(orders + [newOrder]);
    }

    method DeleteOrder(id: int)
      modifies this`ordersEntry
      ensures ordersEntry == Some(RemoveOrder(old(Orders()), id))
    {
      var orders := GetOrders();
      SaveOrders(RemoveOrder(orders, id));
    }

    method GetPendingOrders() returns (pending: seq<Order>)
      ensures pending == PendingOf(Orders())
      ensures forall i :: 0 <= i < |pending| ==> pending[i] in Orders() && pending[i].status == Pending
    {
      var orders := GetOrders();
      pending := PendingOf(orders);
    }
  }

  // ----- What the list transformations mean -----

  /** The default menu has six items with ids 1 to 6, the first being the
      special fried rice at 25000 in the main-course category. */
  lemma DefaultMenuShape()
    ensures |DefaultMenuItems()| == 6
    ensures DefaultMenuItems()[0] == MenuItem(1, "Nasi Goreng Spesial", 25000, "Makanan Utama", Placeholder)
    ensures forall i :: 0 <= i < 6 ==> DefaultMenuItems()[i].id == i + 1
  {
  }

  /** A patch overrides exactly the fields it supplies. */
  lemma MergeOverrides(item: MenuItem, patch: MenuItemPatch)
    ensures Merge(item, patch).name == (if patch.name.Some? then patch.name.value else item.name)
    ensures Merge(item, patch).price == (if patch.price.Some? then patch.price.value else item.price)
    ensures Merge(item, patch).category == (if patch.category.Some? then patch.category.value else item.category)
    ensures Merge(item, patch).image == (if patch.image.Some? then patch.image.value else item.image)
    ensures Merge(item, patch).id == (if patch.id.Some? then patch.id.value else item.id)
    ensures Merge(item, MenuItemPatch(None, None, None, None, None)) == item
  {
  }

  /** Updating keeps the list's length, leaves items with another id as
      they were and merges the patch into the items with the id. */
  lemma UpdateItemsSpec(items: seq<MenuItem>, id: int, patch: MenuItemPatch)
    ensures |UpdateItems(items, id, patch)| == |items|
    ensures forall i :: 0 <= i < |items| && items[i].id != id ==> UpdateItems(items, id, patch)[i] == items[i]
    ensures forall i :: 0 <= i < |items| && items[i].id == id ==> UpdateItems(items, id, patch)[i] == Merge(items[i], patch)
  {
  }

  /** Applying the same update twice is applying it once, as long as the
      patch does not move the item to another id. */
  lemma UpdateItemsIdempotent(items: seq<MenuItem>, id: int, patch: MenuItemPatch)
    requires patch.id == None || patch.id == Some(id)
    ensures UpdateItems(UpdateItems(items, id, patch), id, patch) == UpdateItems(items, id, patch)
  {
    var once := UpdateItems(items, id, patch);
    var twice := UpdateItems(once, id, patch);
    assert |twice| == |once|;
    forall i | 0 <= i < |once| ensures twice[i] == once[i] {
      assert once[i] == MergeIfId(id, patch)(items[i]);
    }
  }

  /** After a delete no item has the id, every other item survives, and
      deleting from two halves of a list deletes from the whole. */
  lemma {:induction false} RemoveItemSpec(items: seq<MenuItem>, more: seq<MenuItem>, id: int)
    ensures forall i :: 0 <= i < |RemoveItem(items, id)| ==> RemoveItem(items, id)[i].id != id
    ensures forall i :: 0 <= i < |items| && items[i].id != id ==> items[i] in RemoveItem(items, id)
    ensures RemoveItem(items + more, id) == RemoveItem(items, id) + RemoveItem(more, id)
  {
    Lists.FilterConcat(items, more, ItemIdIsNot(id));
  }

  /** The same three facts for orders. */
  lemma {:induction false} RemoveOrderSpec(orders: seq<Order>, more: seq<Order>, id: int)
    ensures forall i :: 0 <= i < |RemoveOrder(orders, id)| ==> RemoveOrder(orders, id)[i].id != id
    ensures forall i :: 0 <= i < |orders| && orders[i].id != id ==> orders[i] in RemoveOrder(orders, id)
    ensures RemoveOrder(orders + more, id) == RemoveOrder(orders, id) + RemoveOrder(more, id)
  {
    Lists.FilterConcat(orders, more, OrderIdIsNot(id));
  }

  /** The pending orders are exactly the stored ones with status pending,
      in stored order. */
  lemma {:induction false} PendingOfSpec(orders: seq<Order>, more: seq<Order>)
    ensures forall i :: 0 <= i < |PendingOf(orders)| ==> PendingOf(orders)[i] in orders && PendingOf(orders)[i].status == Pending
    ensures forall i :: 0 <= i < |orders| && orders[i].status == Pending ==> orders[i] in PendingOf(orders)
    ensures PendingOf(orders + more) == PendingOf(orders) + PendingOf(more)
  {
    Lists.FilterConcat(orders, more, IsPending);
  }

  /** A freshly added order shows up at the end of the pending list. */
  lemma {:induction false} AddedOrderIsPending(orders: seq<Order>, input: OrderInput, id: int, createdAt: string)
    ensures PendingOf(orders + [OrderOf(input, id, createdAt)]) == PendingOf(orders) + [OrderOf(input, id, createdAt)]
  {
    Lists.FilterSnoc(orders, OrderOf(input, id, createdAt), IsPending);
  }
}

=== FILE: supabase.dfy ===
/** The remote-preferring data layer of `lib/supabase.ts`. Every operation
    works on the localStorage mirror first and treats the hosted database
    as a best-effort target. A remote call is not executed: its outcome is
    a parameter, `NotConfigured` exactly when the endpoint or the key is
    missing, otherwise `Failed` (an error reply or a thrown exception) or
    `Ok` with the data the service returned. */
module Supabase {
  import opened Wrappers
  import Lists
  import opened Records
  import Browser

  /** The process environment read at module load: endpoint, anon key, and
      the load time stamped on the fallback menu. */
  datatype Env = Env(url: string, anonKey: string, loadedAt: string)

  datatype Outcome<+T> = NotConfigured | Failed | Ok(data: T)

  /** A realtime subscription handle: a no-op one, or a channel by name. */
  datatype Subscription = NoOp | Channel(name: string)

  /** The client is created only when both credentials are non-empty. */
  function ClientCreated(env: Env): bool {
    env.url != "" && env.anonKey != ""
  }

  function IsConfigured(env: Env): (r: bool)
    ensures r <==> env.url != "" && env.anonKey != ""
    ensures r ==> ClientCreated(env)
  {
    ClientCreated(env) && env.url != "" && env.anonKey != ""
  }

  /** A remote outcome is possible in `env`: the call is skipped exactly
      when the service is not configured. */
  predicate Agrees<T>(env: Env, outcome: Outcome<T>) {
    outcome.NotConfigured? <==> !IsConfigured(env)
  }

  // ----- The pure list transformations -----

  /** `{ ...item, ...updates }` */
  function Merge(item: MenuItem, patch: MenuItemPatch): MenuItem {
    MenuItem(
      patch.id.GetOr(item.id),
      patch.name.GetOr(item.name),
      patch.price.GetOr(item.price),
      patch.category.GetOr(item.category),
      patch.imageUrl.GetOr(item.imageUrl),
      patch.createdAt.GetOr(item.createdAt))
  }

  function MergeIfId(id: int, patch: MenuItemPatch): MenuItem -> MenuItem {
    (item: MenuItem) => if item.id == id then Merge(item, patch) else item
  }

  function ItemIdIsNot(id: int): MenuItem -> bool {
    (item: MenuItem) => item.id != id
  }

  function OrderIdIsNot(id: int): Order -> bool {
    (order: Order) => order.id != id
  }

  predicate IsPending(order: Order) {
    order.status == Pending
  }

  function UpdateItems(items: seq<MenuItem>, id: int, patch: MenuItemPatch): seq<MenuItem> {
    Lists.MapSeq(items, MergeIfId(id, patch))
  }

  function RemoveItem(items: seq<MenuItem>, id: int): seq<MenuItem> {
    Lists.Filter(items, ItemIdIsNot(id))
  }

  function RemoveOrder(orders: seq<Order>, id: int): seq<Order> {
    Lists.Filter(orders, OrderIdIsNot(id))
  }

  /** The `filter` of `getPendingOrders`. */
  function PendingOf(orders: seq<Order>): seq<Order> {
    Lists.Filter(orders, IsPending)
  }

  /** The record `addMenuItem` builds locally. */
  function NewMenuItem(input: MenuItemInput, now: int, createdAt: string): MenuItem {
    MenuItem(now, input.name, input.price, input.category, input.imageUrl, createdAt)
  }

  /** The record `addOrder` builds locally: always pending. */
  function NewOrder(input: OrderInput, now: int, createdAt: string): Order {
    Order(now, input.customerName, input.orderType, input.tableNumber, input.address,
          input.phoneNumber, input.items, input.total, Pending, createdAt)
  }

  // ----- The routing policy, as functions of the mirror -----

  /** The two mirrored entries. */
  datatype Mirror = Mirror(menu: Option<seq<MenuItem>>, orders: Option<seq<Order>>)

  /** The mirror after a read, and the list the read returned. */
  datatype Read<T> = Read(mirror: Mirror, value: T)

  function MirrorOf(ls: Browser.LocalStorage): Mirror
    reads ls
  {
    Mirror(ls.menu, ls.orders)
  }

  /** `initializeLocalStorage`: fill in whichever entry is absent. */
  function Initialized(m: Mirror, env: Env): Mirror {
    Mirror(
      if m.menu.None? then Some(FallbackMenuItems(env.loadedAt)) else m.menu,
      if m.orders.None? then Some([]) else m.orders)
  }

  /** `getMenuItems` */
  function MenuRead(m: Mirror, env: Env, read: Outcome<seq<MenuItem>>): Read<seq<MenuItem>> {
    var init := Initialized(m, env);
    match read
    case Ok(data) => Read(if |data| > 0 then init.(menu := Some(data)) else init, data)
    case _ => Read(init, init.menu.GetOr(FallbackMenuItems(env.loadedAt)))
  }

  /** `getOrders` */
  function OrdersRead(m: Mirror, env: Env, read: Outcome<seq<Order>>): Read<seq<Order>> {
    var init := Initialized(m, env);
    match read
    case Ok(data) => Read(init.(orders := Some(data)), data)
    case _ => Read(init, init.orders.GetOr([]))
  }

  /** `getPendingOrders` */
  function PendingRead(m: Mirror, env: Env, read: Outcome<seq<Order>>): Read<seq<Order>> {
    var r := OrdersRead(m, env, read);
    Read(r.mirror, PendingOf(r.value))
  }

  function MenuAfterAdd(m: Mirror, env: Env, read: Outcome<seq<MenuItem>>, item: MenuItem): Mirror {
    var r := MenuRead(m, env, read);
    r.mirror.(menu := Some(r.value + [item]))
  }

  function MenuAfterUpdate(m: Mirror, env: Env, read: Outcome<seq<MenuItem>>, id: int, patch: MenuItemPatch): Mirror {
    var r := MenuRead(m, env, read);
    r.mirror.(menu := Some(UpdateItems(r.value, id, patch)))
  }

  function MenuAfterDelete(m: Mirror, env: Env, read: Outcome<seq<MenuItem>>, id: int): Mirror {
    var r := MenuRead(m, env, read);
    r.mirror.(menu := Some(RemoveItem(r.value, id)))
  }

  function OrdersAfterAdd(m: Mirror, env: Env, read: Outcome<seq<Order>>, order: Order): Mirror {
    var r := OrdersRead(m, env, read);
    r.mirror.(orders := Some(r.value + [order]))
  }

  function OrdersAfterDelete(m: Mirror, env: Env, read: Outcome<seq<Order>>, id: int): Mirror {
    var r := OrdersRead(m, env, read);
    r.mirror.(orders := Some(RemoveOrder(r.value, id)))
  }

  /** What an insert hands back: the service's row on success, otherwise
      the locally built record. */
  function Returned<T>(local: T, insert: Outcome<T>): T {
    if insert.Ok? then insert.data else local
  }

  // ----- The operations, step by step on the browser's storage -----

  method InitializeLocalStorage(ls: Browser.LocalStorage, env: Env)
    modifies ls`menu, ls`orders
    ensures MirrorOf(ls) == Initialized(old(MirrorOf(ls)), env)
  {
    if ls.menu.None? {
      ls.menu := Some(FallbackMenuItems(env.loadedAt));
    }
    if ls.orders.None? {
      ls.orders := Some([]);
    }
  }

  method GetMenuItems(ls: Browser.LocalStorage, env: Env, read: Outcome<seq<MenuItem>>)
    returns (items: seq<MenuItem>)
    requires Agrees(env, read)
    modifies ls`menu, ls`orders
    ensures Read(MirrorOf(ls), items) == MenuRead(old(MirrorOf(ls)), env, read)
  {
    InitializeLocalStorage(ls, env);
    if !IsConfigured(env) || read.Failed? {
      items := ls.menu.GetOr(FallbackMenuItems(env.loadedAt));
      return;
    }
    var data := read.data;
    if |data| > 0 {
      ls.menu := Some(data);
    }
    items := data;
  }

  method AddMenuItem(ls: Browser.LocalStorage, env: Env, input: MenuItemInput, now: int, createdAt: string,
                     read: Outcome<seq<MenuItem>>, insert: Outcome<MenuItem>)
    returns (result: MenuItem)
    requires Agrees(env, read) && Agrees(env, insert)
    modifies ls`menu, ls`orders
    ensures MirrorOf(ls) == MenuAfterAdd(old(MirrorOf(ls)), env, read, NewMenuItem(input, now, createdAt))
    ensures result == Returned(NewMenuItem(input, now, createdAt), insert)
  {
    var newItem := NewMenuItem(input, now, createdAt);
    var items := GetMenuItems(ls, env, read);
    ls.menu := Some(items + [newItem]);
    if !IsConfigured(env) {
      return newItem;
    }
    if insert.Ok? {
      result := insert.data;
    } else {
      result := newItem;
    }
  }

  method UpdateMenuItem(ls: Browser.LocalStorage, env: Env, id: int, updates: MenuItemPatch,
                        read: Outcome<seq<MenuItem>>, write: Outcome<()>)
    returns (ok: bool)
    requires Agrees(env, read) && Agrees(env, write)
    modifies ls`menu, ls`orders
    ensures MirrorOf(ls) == MenuAfterUpdate(old(MirrorOf(ls)), env, read, id, updates)
    ensures ok
  {
    var items := GetMenuItems(ls, env, read);
    ls.menu := Some(UpdateItems(items, id, updates));
    ok := true;
  }

  method DeleteMenuItem(ls: Browser.LocalStorage, env: Env, id: int,
                        read: Outcome<seq<MenuItem>>, write: Outcome<()>)
    returns (ok: bool)
    requires Agrees(env, read) && Agrees(env, write)
    modifies ls`menu, ls`orders
    ensures MirrorOf(ls) == MenuAfterDelete(old(MirrorOf(ls)), env, read, id)
    ensures ok
  {
    var items := GetMenuItems(ls, env, read);
    ls.menu := Some(RemoveItem(items, id));
    ok := true;
  }

  method GetOrders(ls: Browser.LocalStorage, env: Env, read: Outcome<seq<Order>>)
    returns (orders: seq<Order>)
    requires Agrees(env, read)
    modifies ls`menu, ls`orders
    ensures Read(MirrorOf(ls), orders) == OrdersRead(old(MirrorOf(ls)), env, read)
  {
    InitializeLocalStorage(ls, env);
    if !IsConfigured(env) || read.Failed? {
      orders := ls.orders.GetOr([]);
      return;
    }
    var data := read.data;
    ls.orders := Some(data);
    orders := data;
  }

  method GetPendingOrders(ls: Browser.LocalStorage, env: Env, read: Outcome<seq<Order>>)
    returns (pending: seq<Order>)
    requires Agrees(env, read)
    modifies ls`menu, ls`orders
    ensures Read(MirrorOf(ls), pending) == PendingRead(old(MirrorOf(ls)), env, read)
  {
    var orders := GetOrders(ls, env, read);
    pending := PendingOf(orders);
  }

  method AddOrder(ls: Browser.LocalStorage, env: Env, input: OrderInput, now: int, createdAt: string,
                  read: Outcome<seq<Order>>, insert: Outcome<Order>)
    returns (result: Order)
    requires Agrees(env, read) && Agrees(env, insert)
    modifies ls`menu, ls`orders
    ensures MirrorOf(ls) == OrdersAfterAdd(old(MirrorOf(ls)), env, read, NewOrder(input, now, createdAt))
    ensures result == Returned(NewOrder(input, now, createdAt), insert)
  {
    var newOrder := NewOrder(input, now, createdAt);
    var orders := GetOrders(ls, env, read);
    ls.orders := Some(orders + [newOrder]);
    if !IsConfigured(env) {
      return newOrder;
    }
    if insert.Ok? {
      result := insert.data;
    } else {
      result := newOrder;
    }
  }

  method DeleteOrder(ls: Browser.LocalStorage, env: Env, id: int,
                     read: Outcome<seq<Order>>, write: Outcome<()>)
    returns (ok: bool)
    requires Agrees(env, read) && Agrees(env, write)
    modifies ls`menu, ls`orders
    ensures MirrorOf(ls) == OrdersAfterDelete(old(MirrorOf(ls)), env, read, id)
    ensures ok
  {
    var orders := GetOrders(ls, env, read);
    ls.orders := Some(RemoveOrder(orders, id));
    ok := true;
  }

  /** `uploadImage`: the public URL of a successful upload, otherwise the
      file's data URI; never a failure. */
  method UploadImage(env: Env, dataUri: string, upload: Outcome<string>) returns (reference: string)
    requires Agrees(env, upload)
    ensures upload.Ok? ==> reference == upload.data
    ensures !upload.Ok? ==> reference == dataUri
  {
    if !IsConfigured(env) {
      return dataUri;
    }
    if upload.Ok? {
      reference := upload.data;
    } else {
      reference := dataUri;
    }
  }

  /** `subscribeToMenuItems` and `subscribeToOrders`: a no-op handle when
      the service is not configured or the channel cannot be set up. */
  method Subscribe(env: Env, table: string, setup: Outcome<()>) returns (handle: Subscription)
    requires Agrees(env, setup)
    requires table == "menu_items" || table == "orders"
    ensures handle.Channel? <==> setup.Ok?
    ensures handle.Channel? ==> handle.name == table + "_changes"
  {
    if !IsConfigured(env) {
      return NoOp;
    }
    if setup.Ok? {
      handle := Channel(table + "_changes");
    } else {
      handle := NoOp;
    }
  }

  /** `checkSupabaseConnection`: reachable only when configured and the
      probe read came back without error. */
  method CheckConnection(env: Env, probe: Outcome<()>) returns (connected: bool)
    requires Agrees(env, probe)
    ensures connected <==> IsConfigured(env) && probe.Ok?
  {
    if !IsConfigured(env) {
      return false;
    }
    connected := probe.Ok?;
  }

  // ----- What the policy guarantees -----

  /** Initialisation only fills in absent entries: it never overwrites
      stored data, and running it again changes nothing. */
  lemma InitializedNeverOverwrites(m: Mirror, env: Env)
    ensures m.menu.Some? ==> Initialized(m, env).menu == m.menu
    ensures m.orders.Some? ==> Initialized(m, env).orders == m.orders
    ensures m.menu.None? ==> Initialized(m, env).menu == Some(FallbackMenuItems(env.loadedAt))
    ensures m.orders.None? ==> Initialized(m, env).orders == Some([])
    ensures Initialized(Initialized(m, env), env) == Initialized(m, env)
  {
  }

  /** Offline or after a remote failure the menu comes from the mirror,
      which is the fallback menu when nothing was stored; the mirror is
      only initialised. */
  lemma MenuReadFallsBack(m: Mirror, env: Env, read: Outcome<seq<MenuItem>>)
    requires !read.Ok?
    ensures MenuRead(m, env, read).mirror == Initialized(m, env)
    ensures m.menu.Some? ==> MenuRead(m, env, read).value == m.menu.value
    ensures m.menu.None? ==> MenuRead(m, env, read).value == FallbackMenuItems(env.loadedAt)
  {
  }

  /** On first run with the service unavailable the six-item seed is
      shown, headed by the special fried rice at 25000. */
  lemma FirstRunShowsSeed(env: Env, read: Outcome<seq<MenuItem>>)
    requires !read.Ok?
    ensures |MenuRead(Mirror(None, None), env, read).value| == 6
    ensures MenuRead(Mirror(None, None), env, read).value[0]
         == MenuItem(1, "Nasi Goreng Spesial", 25000, "Makanan Utama", Some(Placeholder), env.loadedAt)
  {
  }

  /** A successful menu read returns the fetched list and refreshes the
      mirror with it only when it is non-empty. */
  lemma MenuReadRefreshesWhenNonEmpty(m: Mirror, env: Env, data: seq<MenuItem>)
    ensures MenuRead(m, env, Ok(data)).value == data
    ensures |data| > 0 ==> MenuRead(m, env, Ok(data)).mirror.menu == Some(data)
    ensures |data| == 0 ==> MenuRead(m, env, Ok(data)).mirror.menu == Initialized(m, env).menu
    ensures MenuRead(m, env, Ok(data)).mirror.orders == Initialized(m, env).orders
  {
  }

  /** A successful orders read always refreshes the mirror, even with an
      empty list; a failed one leaves the (initialised) mirror alone. */
  lemma OrdersReadRefreshesAlways(m: Mirror, env: Env, read: Outcome<seq<Order>>)
    ensures read.Ok? ==> OrdersRead(m, env, read).mirror.orders == Some(read.data)
    ensures read.Ok? ==> OrdersRead(m, env, read).value == read.data
    ensures !read.Ok? ==> OrdersRead(m, env, read).mirror == Initialized(m, env)
    ensures !read.Ok? ==> OrdersRead(m, env, read).value == m.orders.GetOr([])
  {
  }

  /** The locally built record is what an insert returns unless the
      service accepted it. */
  lemma LocalRecordReturnedUnlessAccepted<T>(local: T, insert: Outcome<T>)
    ensures !insert.Ok? ==> Returned(local, insert) == local
    ensures insert.Ok? ==> Returned(local, insert) == insert.data
  {
  }

  /** Adding a menu item writes it at the end of the mirror whatever the
      service does, and an offline listing afterwards shows it last. */
  lemma {:induction false} AddedMenuItemListedLast(m: Mirror, env: Env, read: Outcome<seq<MenuItem>>, item: MenuItem)
    ensures MenuAfterAdd(m, env, read, item).menu == Some(MenuRead(m, env, read).value + [item])
    ensures MenuRead(MenuAfterAdd(m, env, read, item), env, NotConfigured).value == MenuRead(m, env, read).value + [item]
  {
  }

  /** After a delete, a listing that falls back to the mirror never shows
      the deleted id; the other items keep their relative order. */
  lemma {:induction false} DeletedMenuItemStaysGone(m: Mirror, env: Env, read: Outcome<seq<MenuItem>>, id: int,
                                                    later: Outcome<seq<MenuItem>>)
    requires !later.Ok?
    ensures forall i :: 0 <= i < |MenuRead(MenuAfterDelete(m, env, read, id), env, later).value|
              ==> MenuRead(MenuAfterDelete(m, env, read, id), env, later).value[i].id != id
    ensures MenuRead(MenuAfterDelete(m, env, read, id), env, later).value == RemoveItem(MenuRead(m, env, read).value, id)
  {
  }

  /** After `deleteOrder`, a pending listing that falls back to the mirror
      contains no order with that id, even when the remote delete failed. */
  lemma {:induction false} DeletedOrderNotPending(m: Mirror, env: Env, read: Outcome<seq<Order>>, id: int,
                                                  later: Outcome<seq<Order>>)
    requires !later.Ok?
    ensures forall i :: 0 <= i < |PendingRead(OrdersAfterDelete(m, env, read, id), env, later).value|
              ==> PendingRead(OrdersAfterDelete(m, env, read, id), env, later).value[i].id != id
  {
    var orders := OrdersRead(m, env, read).value;
    var kept := RemoveOrder(orders, id);
    assert OrdersRead(OrdersAfterDelete(m, env, read, id), env, later).value == kept;
    var pending := PendingOf(kept);
    forall i | 0 <= i < |pending| ensures pending[i].id != id {
      assert pending[i] in kept;
      var j :| 0 <= j < |kept| && kept[j] == pending[i];
      assert OrderIdIsNot(id)(kept[j]);
    }
  }

  /** A new order shows up exactly once, at the end, in an offline
      pending listing taken right after it was added. */
  lemma {:induction false} AddedOrderIsPending(m: Mirror, env: Env, read: Outcome<seq<Order>>,
                                               input: OrderInput, now: int, createdAt: string)
    ensures PendingRead(OrdersAfterAdd(m, env, read, NewOrder(input, now, createdAt)), env, NotConfigured).value
         == PendingOf(OrdersRead(m, env, read).value) + [NewOrder(input, now, createdAt)]
  {
    var orders := OrdersRead(m, env, read).value;
    Lists.FilterSnoc(orders, NewOrder(input, now, createdAt), IsPending);
  }
}

=== FILE: wrappers.dfy ===
/** Optional values: a localStorage entry that may be absent, a field that
    a partial update may or may not carry, a parsed number that may be NaN. */
module Wrappers {

  datatype Option<+T> = None | Some(value: T) {

    /** The carried value, or `default` when there is none. */
    function GetOr(default: T): T {
      match this
      case Some(v) => v
      case None => default
    }
  }
}
